=== FILE: README.md ===
# Chat relay: relay step, client decoding and chatbot parsing

A model in Dafny of a small TCP chat system made of three programs:

- **the relay** (`server.py`) keeps one registry of named connections and two append-only
  stores (global and private records). Each connection handler reads JSON records (`name`,
  `online_usr`, `msg`, `file`) and answers with text frames `msg=…`, `file=s||n||d` or
  `online_users=[…]`. When the connection closes, the handler removes its own entry.
- **the desktop client** (`client.py`) splits each frame at its first `=`. It recognises the
  relay's "name taken" and "welcome" notices, splits file offers on `||`, picks a free name
  for a download, and builds the records it sends.
- **the chatbot** (`ai_client.py`) registers as `ChatBot`. It reads `[sender -> destination]: text`
  lines with `find` and slicing, and answers lines addressed to it privately with
  `🤖 <answer>`. The language model is an arbitrary function `ai: string -> string`.

Modules:

- `Strings`: the Python string operations involved: `find`, `in`, slicing with negative and
  out-of-range bounds, `strip`, `split(sep, n)`, `rfind` and `str(n)`.
- `Protocol`: inbound records, outbound frames and their wire text, and the notice texts.
- `Registry`: the connection list.
- `Store`: stored records and "latest record for a pair".
- `Server`: one handler step, and cleanup at disconnect.
- `System`: many handlers driven by a sequence of events, with an invariant that holds over
  every run.
- `Client`, `Bot`: the two clients.
- `Flows`: whole exchanges: client record → relay step → receiving client or chatbot.

Behaviours worth noting:

- A global **file** is stored with the destination `4all` (the raw `control` value).
  A global text is stored with `all` (server.py:386-394, 437-446).
- A connection that sends a second, free `name` gets a second registry entry. Only the
  latest entry is removed when it disconnects, so the first name stays listed
  (`Server.SecondNameLeavesStaleEntry`).
- Cleanup uses `list.remove` on the handler's latest entry (server.py:471-472). This removes
  only the first element equal to that entry; any other entry of the same connection stays
  listed.
- The client treats any `msg` value containing both `[Servidor]:` and "já está sendo usado"
  as a rejection. This includes the welcome notice for a name that itself contains that phrase
  (`Client.WelcomeMisreadForOddName`) and a user's chat text holding both
  (`Client.ChatMisreadAsRejection`, `Flows.GlobalChatMisread`).
- The chatbot finds the parts of a line with the first `[`, the first ` ->` and the first
  `]:`. A sender name holding ` -> ChatBot]: ` turns a global line into a question to the
  bot from a shorter name (`Bot.ForgedSenderAnswered`).
- An asker named `4all` does not get a private answer: the relay reads the answer's
  destination as the broadcast marker (`Flows.AnswerToBroadcastNameIsBroadcast`).

## Model

| member | source | states |
|---|---|---|
| Strings.FindFrom | ai_client.py:266-276 | `str.find` from a start index: the result is the least occurrence at or after the start, or -1 exactly when there is none |
| Strings.Slice | ai_client.py:266-276 | Python slicing `s[i:j]`: each bound is normalised (a negative bound counts from the end, an out-of-range bound is clamped), and the result is the subsequence between the normalised bounds, empty when they are inverted |
| Strings.Strip | ai_client.py:271 | `strip()`: the result has no whitespace at either end (Python's `isspace` set), is empty exactly when the input is all whitespace, and is a piece of the input with only whitespace cut off before and after it |
| Strings.StripUnique | ai_client.py:271 | `strip()` is determined: any piece with non-blank ends and only whitespace around it is the result |
| Strings.SplitN | client.py:473 | `split(sep, n)`: at most n+1 parts that rejoin to the input; no part but the last contains the separator, nor does the last one when fewer than n+1 parts result; every cut is at the first occurrence of the separator in what remains |
| Strings.NatToStringRoundTrip | server.py:258 | the decimal text of a port number reads back as that number, so distinct ports print differently |
| Registry.NameInUse | server.py:211-219 | `name_already_exists` holds exactly when some registry entry carries the name |
| Registry.FindByName | server.py:201-208 | `search_name_in_connections` is absent exactly when the name is unused; otherwise it gives a registry entry with that name |
| Registry.FindByNameUnique | server.py:201-208 | with unique names, the lookup returns exactly the entry holding the name |
| Registry.OnlineUsers | server.py:244-265 | the user list holds, in registry order, one name and `ip:port` for each entry whose name differs from the requester's |
| Registry.RemoveFirst | server.py:471-472 | `list.remove`: an absent element changes nothing; otherwise exactly one copy is taken out (multiset difference), that copy is the first one, the other elements keep their order, and every other element's membership is kept |
| Registry.RemoveFirstKeepsUnique | server.py:471-472 | removing an entry keeps registry names unique |
| Store.LatestFor | server.py:283-294 | the record picked for a sender and destination is a stored record between them; there is none exactly when no record matches |
| Store.LatestIsLast | server.py:283-294 | the picked record sits at a position after which no stored record matches the pair |
| Store.LatestAfterAppend | server.py:283-294 | right after a matching record is appended, the latest match is that record |
| Store.LatestSkipsOthers | server.py:283-294 | appending a record between other names leaves the latest match for a pair unchanged |
| Server.History | server.py:221-242 | history replay sends one frame per global record, in insertion order, all to the new connection |
| Server.SendToAllIsFanout | server.py:311-318 | broadcasting the newest global record sends its frame once to every other connection's entry, in registry order |
| Server.DuplicateNameRejected | server.py:344-354 | a taken name changes neither registry nor handler, and produces exactly the two notices, in order |
| Server.FreshNameRegistered | server.py:355-367 | a free name appends one entry and binds it to the handler; the reply is the welcome followed by the whole global history |
| Server.UnnamedRequestRejected | server.py:369-384 | before registration, a list request or a submission changes nothing and draws one "define a name first" notice |
| Server.BroadcastFansOut | server.py:386-397 | a broadcast appends exactly one global record and reaches every entry of another connection, and nobody else |
| Server.PrivateDelivered | server.py:398-409 | a private record to a registered name is appended to the private store and sent only to that name's connection, as `[s -> d]: text` |
| Server.UnknownDestinationDropped | server.py:413-417 | a private record to an unknown name stores nothing and draws one error notice to the sender; for a file, the notice names the file |
| Server.OnlineListSnapshot | server.py:369-377 | a list request changes nothing and returns, to the requester only, every other-named entry in registry order |
| Server.StepOnlyAppends | server.py:336-467 | a step only appends: at most one record across both stores and at most one registry entry |
| Server.StepKeepsNamesUnique | server.py:344-358 | a step never creates two registry entries with the same name |
| Server.SecondNameLeavesStaleEntry | server.py:355-358 | a second free name on a named connection adds a new entry; the later disconnect removes that entry and leaves the first one listed |
| Server.DisconnectRemovesOwnEntry | server.py:470-474 | disconnecting a named connection removes the first copy of its current entry, keeps the other entries in order, and keeps both stores |
| Server.DisconnectUnnamed | server.py:475-482 | an unnamed connection with no entry leaves the relay state unchanged when it disconnects |
| Server.NewRecord | server.py:386-442 | the stored record keeps the sender and the content; it is a file exactly for a `file` record, named by the record's filename or `arquivo_recebido` when it has none; a global text is addressed to `all`, every other record to its `control` value |
| Server.SendToUser | server.py:270-309 | at most one frame, to the recipient only; a global send writes nothing exactly when the global store is empty, a private one exactly when no record from the sender to the recipient is stored |
| Server.SendToAll | server.py:311-318 | at most one frame per registry entry, nothing for an empty store, and every frame goes to an entry of another connection |
| Server.RegisterName | server.py:344-367 | the stores are untouched; the relay state is unchanged exactly when the name is taken; a free name binds the handler to a new registry entry; every frame goes to the requester |
| Server.Submit | server.py:379-461 | the registry and the handler are untouched; the relay state is unchanged exactly for a private record to an unknown name, which draws one notice to the sender |
| Server.Step | server.py:336-467 | the handler keeps its socket and address; only a `name` record changes the handler or the registry; the stores only grow at the end; an unnamed connection changes nothing except by registering |
| Server.Disconnect | server.py:470-482 | the stores are kept, no entry is added, and a named connection whose entry is listed loses exactly one entry |
| System.RunKeepsInv | server.py:320-482 | any event sequence keeps unique names, issued ids, and each handler's entry (or the absence of one) consistent with the registry |
| System.NamesUniqueInEveryRun | server.py:344-358 | from a fresh relay, no sequence of connects, records and disconnects ever yields two entries with the same name |
| System.ReceiveTargets | server.py:336-467 | every frame written while handling a record goes back to that connection or to a connection holding a registry entry |
| System.Apply | server.py:320-484 | only a record writes frames; a new connection adds an unnamed handler under a fresh id without touching the relay state; a dropped connection loses its handler; events for connections that are not open change nothing |
| Client.SplitKey | client.py:473 | a frame without `=` gives nothing; otherwise key and value rejoin to the frame, and the key holds no `=` |
| Client.SplitKeyRoundTrip | client.py:473 | any `key=value` with an `=`-free key splits back to that key and value, even when the value holds `=` |
| Client.Decode | client.py:469-473 | the loop ends exactly on a frame without `=`, the empty read included |
| Client.DecodeSplitsAtFirstEquals | client.py:468-473 | the receive loop ends exactly on a frame without `=`; a chat value is everything after `msg=` |
| Client.FileFields | client.py:506-508 | a file value yields three fields that rejoin to it with `\|\|`, the first two without `\|\|`, cut at the first `\|\|` and at the first `\|\|` after it; it yields nothing exactly when fewer than two separators occur |
| Client.DecodeFileFrame | client.py:504-511 | a relay file frame decodes to the original sender, name and payload, with size (3·len)//4, when sender and name hold no `\|` |
| Client.DecodeBadFile | client.py:514-515 | a file value without `\|\|` is reported as malformed |
| Client.DecodeUsersFrame | client.py:494-502 | the user-list frame decodes to exactly the payload the relay wrote |
| Client.Classify | client.py:475-493 | a value is a user line exactly when it lacks `[Servidor]:`; a rejection exactly when it holds that tag and the rejection phrase; the welcome exactly when it holds the tag and the welcome phrase but not the rejection phrase; any other tagged value is a plain relay note |
| Client.Receive | client.py:465-520 | the client keeps reading exactly when the frame holds `=`; a `msg` frame is handled as its value by `OnChat`, and every other frame leaves the flags alone and sends nothing; the only record ever sent in reply is one user-list request, and only as the client becomes registered |
| Client.OnChat | client.py:475-493 | a `msg` value never ends the loop; with the tag and the rejection phrase the client becomes unregistered and waiting and sends nothing; with the tag and the welcome phrase (and no rejection phrase) it becomes registered and sends one user-list request; otherwise flags and sends are unchanged |
| Client.ChatLineReading | client.py:475-493 | a relayed chat line whose sender holds no `]` and destination no `[` is shown as a user line exactly when its text lacks `[Servidor]:` |
| Client.ChatMisreadAsRejection | client.py:477-482 | a chat line whose text holds both `[Servidor]:` and the rejection phrase leaves the receiving client unregistered and waiting for a name |
| Client.RejectionSequence | client.py:477-482 | after "name taken" and "type a new name", the client is unregistered and waiting for a name, having sent nothing |
| Client.WelcomeRecognised | client.py:483-489 | the welcome marks the client registered and sends one user-list request, unless the name contains the rejection phrase |
| Client.WelcomeMisreadForOddName | client.py:477-489 | a welcome for a name containing the rejection phrase is taken as a rejection |
| Client.SplitExt | client.py:440-441 | `os.path.splitext`: base and extension rejoin to the name; the extension is non-empty exactly when the last path component holds a `.` after some other character, and it then runs from the last `.` of the name, holding no `/` and no further `.` |
| Client.Attempt | client.py:443-447 | attempt 0 is the original name, and every later attempt differs from it |
| Client.AttemptInjective | client.py:440-446 | different attempt counters give different download names, for every extension shape |
| Client.DownloadName | client.py:439-447 | the chosen name is not in use; a free file name is kept; otherwise it is `base_k.ext` with the least k whose name is free |
| Client.GlobalMessage | client.py:303-315 | a global record is sent only when registered and the stripped text is non-empty; it carries the stripped text to `4all` |
| Client.PrivateMessage | client.py:321-346 | a private record is sent only when registered and the text is non-empty; it carries the text unchanged to the target |
| Client.FileRecord | client.py:393-409 | a file record goes to `4all` or to the chosen user, with the payload and the file's name, and only when registered |
| Client.UsersRequest | client.py:414-421 | a user-list request, with placeholders, is sent exactly when registered |
| Client.NameRecord | client.py:535-541 | a `name` record is sent exactly for a non-empty name, carrying it |
| Bot.ParseLine | ai_client.py:264-276 | a line is parsed exactly when it contains `[`, ` -> ` and `]:`; destination and text come out stripped |
| Bot.SenderOf | ai_client.py:266 | when the first `[` precedes the first ` ->`, the sender is exactly the text between them |
| Bot.SenderHasNoArrow | ai_client.py:266 | a sender never contains ` ->` |
| Bot.DestinationOf | ai_client.py:268-271 | the destination carries no surrounding whitespace |
| Bot.DestinationHasNoClose | ai_client.py:268-271 | a destination never contains `]:` |
| Bot.TextOf | ai_client.py:276 | the text carries no surrounding whitespace |
| Bot.TextFollowsClose | ai_client.py:276 | the text is a piece of the value lying after the first `]:` |
| Bot.InvertedSenderIsEmpty | ai_client.py:266 | when ` ->` comes no later than just after the first `[`, the sender is empty |
| Bot.ParseChatLine | ai_client.py:264-276 | the relay's private line `[s -> d]: c` (server.py:298) reads back as (s, strip(d), strip(c)), provided s has no `>` or `]` and d has no `]` |
| Bot.Registration | ai_client.py:211-219 | the bot's registration is the same `name` record the desktop client sends |
| Bot.Response | ai_client.py:221-239 | the answer is a private `msg` to the asker whose text is the answer after the `🤖 ` prefix |
| Bot.AnswersLinesForIt | ai_client.py:280-286 | a relayed private line to `ChatBot` from a sender without `>` or `]` draws exactly one answer, to the sender, carrying the model's reply to the stripped text |
| Bot.IgnoresBroadcastLines | ai_client.py:280-282 | a relayed `[s -> todos]: c` line from a sender without `>` or `]` is never answered |
| Bot.ForgedSenderAnswered | ai_client.py:264-286 | a global line whose sender name is `x -> ChatBot]: y` (x without `>` or `]`) is answered, to `x`, with the model's reply to the stripped remainder |
| Bot.AnswersOnlyLinesForIt | ai_client.py:261-286 | an answer is given only for a `msg=` frame whose parsed line is addressed to `ChatBot`; it goes to that line's sender and carries the model's reply to the line's text |
| Bot.React | ai_client.py:254-292 | the bot's loop ends exactly on a non-empty frame without `=`; an empty read is skipped |
| Flows.RegistrationAccepted | client.py:483-489 | a client registering a free name that does not contain the rejection phrase is bound at the relay, and the welcome it gets back registers it and triggers a user-list request |
| Flows.RegistrationRefused | server.py:348-354 | a taken name leaves the relay unchanged, and the two notices leave the client waiting for a new name |
| Flows.GlobalChatDelivered | server.py:386-397 | a client's global text is stored stripped for `all`; the frames are exactly one `[sender -> todos]: text` per entry of another connection, in registry order; each decodes as a chat value, and for a sender without `]` the receiving client shows it as a user line exactly when the text lacks `[Servidor]:` |
| Flows.GlobalChatMisread | client.py:475-482 | a global text holding both `[Servidor]:` and the rejection phrase makes every recipient drop its registration and wait for a new name |
| Flows.BotIgnoresGlobalChat | ai_client.py:264-282 | a global chat line relayed from a sender without `>` or `]` is never answered by the bot, whatever its text |
| Flows.QuestionReachesBot | ai_client.py:264-286 | a private question to `ChatBot` reaches only the bot, and the bot answers the asker (whose name holds no `>` or `]`) with the model's reply to the stripped question |
| Flows.AnswerReachesAsker | server.py:398-409 | the bot's answer to an asker not named `4all` is relayed only to the asker, as `[ChatBot -> asker]: 🤖 answer` |
| Flows.AnswerToBroadcastNameIsBroadcast | server.py:386-397 | the bot's answer to an asker named `4all` is stored globally for `all` and sent to every other connection as `[ChatBot -> todos]: 🤖 answer` |
| Flows.PrivateFileDelivered | server.py:419-458 | a private file to a user not named `4all`, with no `\|` in the sender's name or the file name, reaches only that user, whose client decodes it into the same sender, name, payload and estimated size |
| Flows.FileToBroadcastNameIsBroadcast | server.py:444-449 | a file addressed to a user named `4all` is stored globally under `4all` and sent as a file frame to every other connection |

## Left out

- GUI (tkinter windows, dialogs, colours and log panes): it is presentation only. Choosing a recipient and answering dialogs become function arguments.
- Sockets, threads, `time.sleep`, the GUI statistics counters and the relay's accept loop: the model handles one event at a time (`System.Apply`), so races between connection threads are not modelled.
- UDP server discovery in all three programs: it does not affect the chat protocol.
- JSON decoding and encoding of inbound records: a record arrives already decoded (`InRecord`). An undecodable frame, a missing key or a transport error ends the connection's loop, modelled as the `Drop` event, which runs the cleanup.
- `json.dumps` escaping of the user list: names and addresses are rendered between quotes as they are.
- Base64 encoding and decoding and file I/O (reading the file to send, writing the download): the payload is an opaque string. The set of existing download names is a parameter of `Client.DownloadName`.
- The Ollama HTTP call, its health check, its error texts, the knowledge-base text and the prompt cap: the model's answer is an arbitrary function `ai`.
- TCP framing: one `recv` is taken to deliver exactly one frame written by one `send`.
- `list.remove` raising `ValueError` for an absent entry: the model leaves the registry unchanged instead. `System.RunKeepsInv` shows the entry is always present when removed.
- `Server.DisconnectUnnamed`: states only the case where the registry holds no entry of the connection, which `System.Inv` guarantees for unnamed connections.
- `Bot.ParseChatLine`: the round trip is stated under character-level side conditions (no `>` or `]` in the sender, no `]` in the destination), which are sufficient but not necessary.
- Bot.AnswersLinesForIt: stated only for senders without `>` or `]`; other senders can shift the parse, as `Bot.ForgedSenderAnswered` shows for one shape of name.
- Bot.IgnoresBroadcastLines: stated only for senders without `>` or `]`; a sender name holding ` -> ChatBot]: ` does get an answer (`Bot.ForgedSenderAnswered`).
- Flows.QuestionReachesBot: stated only for askers whose name holds no `>` or `]`, for the same reason.
- Flows.AnswerReachesAsker: stated for askers not named `4all`; the answer to such an asker is broadcast instead (`Flows.AnswerToBroadcastNameIsBroadcast`).
- Flows.GlobalChatDelivered: the display claim is stated only for senders without `]` in the name.
- Bot.DestinationOf: its contract states only that the result is stripped; where the destination lies is stated by `Bot.DestinationHasNoClose` and `Bot.DestinationOfChatLine`.
- Bot.TextOf: its contract states only that the result is stripped; where the text lies is stated by `Bot.TextFollowsClose` and `Bot.TextOfChatLine`.
- Client.SplitExt: models `os.path.splitext` on POSIX paths only; on Windows `\` also separates path components, which the model does not treat as a separator.
- Flows.RegistrationAccepted: stated only for names without the rejection phrase; for such a name the welcome is misread (`Client.WelcomeMisreadForOddName`).
- Flows.PrivateFileDelivered: stated only when neither the sender's name nor the file name holds `|`, since the receiver splits on `||`; and only for a recipient not named `4all`, whose file is broadcast instead (`Flows.FileToBroadcastNameIsBroadcast`).
- Flows.BotIgnoresGlobalChat: stated only for senders without `>` or `]`, as for `Bot.IgnoresBroadcastLines`.
- `Client.WelcomeRecognised`: stated only for names that do not contain the rejection phrase; the other case is `Client.WelcomeMisreadForOddName`.

=== FILE: bot.dfy ===
/**
 The automated responder: a client registered as "ChatBot" that reads the relay's chat
 lines, picks out the sender, destination and text of `[sender -> destination]: text`
 with `find` and slicing, and answers privately when the line is addressed to it. The
 language model is a parameter `ai` (any function from question to answer).
 */
module Bot {
  import opened Wrappers
  import opened Strings
  import opened Protocol
  import Client

  const BotName: string := "ChatBot"
  const ReplyPrefix: string := "🤖 "

  /** The parts of a chat line as the responder reads them. */
  datatype Line = Line(sender: string, destination: string, text: string)

  /** Parsing is attempted only when "[", " -> " and "]:" all occur in the value. */
  predicate LooksPrivate(value: string)
  {
    Contains(value, "[") && Contains(value, " -> ") && Contains(value, "]:")
  }

  /** The sender runs from just after the first "[" to the first " ->"; an inverted range
      gives the empty string. */
  function SenderOf(value: string): (r: string)
    ensures Contains(value, "[") && Find(value, "[") < Find(value, " ->") ==>
              r == value[Find(value, "[") + 1..Find(value, " ->")]
  {
    Slice(value, Find(value, "[") + 1, Find(value, " ->"))
  }

  /** The destination runs from just after the first " -> " to the first "]:" at or after
      that point (to the last character but one when there is none), and is stripped. */
  function DestinationOf(value: string): (r: string)
    requires Contains(value, " -> ")
    ensures Stripped(r)
  {
    var startDest := Find(value, " -> ") + 4;
    Strip(Slice(value, startDest, FindFrom(value, "]:", startDest)))
  }

  /** The text is everything after the first "]:", stripped. */
  function TextOf(value: string): (r: string)
    requires Contains(value, "]:")
    ensures Stripped(r)
  {
    Strip(Slice(value, Find(value, "]:") + 2, |value|))
  }

  /** A sender never contains " ->": it ends at the first one. */
  lemma SenderHasNoArrow(value: string)
    requires Contains(value, " ->")
    ensures !Contains(SenderOf(value), " ->")
  {
    var k := Find(value, " ->");
    var a := SliceBound(Find(value, "[") + 1, |value|);
    if a < k {
      SliceBeforeFirst(value, " ->", 0, a, k);
    }
  }

  /** A destination never contains "]:": it ends at the first one after " -> ", or, when
      there is none, the text it is cut from contains none. */
  lemma DestinationHasNoClose(value: string)
    requires Contains(value, " -> ")
    ensures !Contains(DestinationOf(value), "]:")
  {
    var startDest := Find(value, " -> ") + 4;
    var e := FindFrom(value, "]:", startDest);
    var raw := Slice(value, startDest, e);
    assert DestinationOf(value) == Strip(raw);
    RawDestinationHasNoClose(value, startDest, e);
    NotContainsStripped(raw, "]:");
  }

  /** The slice from `start` up to the first "]:" found from `start` (or up to the last
      character but one when there is none) does not contain "]:". */
  lemma RawDestinationHasNoClose(value: string, start: nat, e: int)
    requires start <= |value| && e == FindFrom(value, "]:", start)
    ensures !Contains(Slice(value, start, e), "]:")
  {
    var end := if e >= 0 then e else SliceBound(-1, |value|);
    if start < end {
      assert Slice(value, start, e) == value[start..end];
      SliceBeforeFirst(value, "]:", start, start, end);
    } else {
      assert Slice(value, start, e) == [];
    }
  }

  /** The text is a piece of what follows the first "]:". */
  lemma TextFollowsClose(value: string)
    requires Contains(value, "]:")
    ensures exists a, b :: Find(value, "]:") + 2 <= a <= b <= |value| && value[a..b] == TextOf(value)
  {
    var t := TextRest(value);
    StripOfSuffix(value, Find(value, "]:") + 2);
  }

  /** What the text is stripped from: everything after the first "]:". */
  lemma TextRest(value: string) returns (t: string)
    requires Contains(value, "]:")
    ensures t == value[Find(value, "]:") + 2..] && TextOf(value) == Strip(t)
  {
    var f := Find(value, "]:");
    assert f >= 0 && At(value, "]:", f);
    TextSliceIsSuffix(value, f + 2);
    t := value[f + 2..];
    assert TextOf(value) == Strip(Slice(value, f + 2, |value|));
  }

  /** The responder's reading of a `msg` value. */
  function ParseLine(value: string): (r: Option<Line>)
    ensures r.Some? <==> LooksPrivate(value)
    ensures r.Some? ==> Stripped(r.value.destination) && Stripped(r.value.text)
  {
    if !LooksPrivate(value) then None
    else Some(Line(SenderOf(value), DestinationOf(value), TextOf(value)))
  }

  /** When " ->" comes no later than just after the first "[", the sender is empty. */
  lemma InvertedSenderIsEmpty(value: string)
    requires LooksPrivate(value)
    requires Find(value, " ->") <= Find(value, "[") + 1
    ensures ParseLine(value).value.sender == []
  {
    var k := Find(value, " -> ");
    assert value[k..k + 3] == value[k..k + 4][..3];
    ContainsAt(value, " ->", k);
  }

  /** `send_name`: the registration record. */
  function Registration(name: string): (r: InRecord)
    ensures name != [] ==> Client.NameRecord(name) == Some(r)
  {
    InRecord("name", Placeholder, name, None)
  }

  /** `send_response`: a private `msg` record to `to` carrying the prefixed answer. */
  function Response(to: string, answer: string): (r: InRecord)
    ensures r.kind == "msg" && r.control == to && r.filename.None?
    ensures |r.message| == |answer| + 2 && r.message[2..] == answer && r.message[..2] == ReplyPrefix
  {
    InRecord("msg", to, ReplyPrefix + answer, None)
  }

  /** What the responder does with one received frame. */
  datatype Action =
    | Stop               // the frame has no "=": the loop ends
    | Idle               // nothing to do (empty read, other key, not a line for the bot)
    | Answer(record: InRecord)

  /** One turn of the responder's receive loop, with the model passed in as `ai`: the loop
      ends exactly on a non-empty frame without "=" (an empty read is skipped). */
  function React(frame: string, ai: string -> string): (r: Action)
    ensures r == Stop <==> frame != [] && !Contains(frame, "=")
  {
    if frame == [] then Idle
    else
      match Client.SplitKey(frame)
      case None => Stop
      case Some((key, value)) =>
        if key != "msg" then Idle
        else
          match ParseLine(value)
          case None => Idle
          case Some(line) =>
            if line.destination == BotName then Answer(Response(line.sender, ai(line.text))) else Idle
  }

  /** An answer is given only to a `msg=` frame whose line is addressed to the bot: it goes
      to that line's sender and carries the model's reply to the line's text. */
  lemma AnswersOnlyLinesForIt(frame: string, ai: string -> string)
    requires React(frame, ai).Answer?
    ensures |frame| >= 4 && frame[..4] == "msg="
    ensures var line := ParseLine(frame[4..]);
            && line.Some? && line.value.destination == BotName
            && React(frame, ai).record == Response(line.value.sender, ai(line.value.text))
  {
    var value := AnsweredValue(frame, ai);
    Client.KeyPrefix(frame, "msg", value);
    assert frame[4..] == value;
  }

  /** Unfolds `React` on a frame it answers. */
  lemma AnsweredValue(frame: string, ai: string -> string) returns (value: string)
    requires React(frame, ai).Answer?
    ensures "msg" + "=" + value == frame
    ensures var line := ParseLine(value);
            && line.Some? && line.value.destination == BotName
            && React(frame, ai).record == Response(line.value.sender, ai(line.value.text))
  {
    value := Client.SplitKey(frame).value.1;
  }

  /** The side conditions under which a relay chat line reads back: the sender holds no ">"
      or "]", and the destination no "]". */
  predicate Readable(sender: string, destination: string)
  {
    '>' !in sender && ']' !in sender && ']' !in destination
  }

  /** The relay's private line `[s -> d]: c` is read back as `s`, with the destination and
      the text stripped. */
  lemma ParseChatLine(s: string, d: string, c: string)
    requires Readable(s, d)
    ensures ParseLine(ChatLine(s, d, c)) == Some(Line(s, Strip(d), Strip(c)))
  {
    SenderOfChatLine(s, d, c);
    DestinationOfChatLine(s, d, c);
    TextOfChatLine(s, d, c);
  }

  /** In `[s -> d]: c` the first " ->" and the first " -> " sit right after the sender. */
  lemma ArrowAfterSender(s: string, d: string, c: string)
    requires '>' !in s
    ensures Find(ChatLine(s, d, c), " ->") == 1 + |s|
    ensures Find(ChatLine(s, d, c), " -> ") == 1 + |s|
  {
    var v := ChatLine(s, d, c);
    var a := "[" + s + " -";
    assert v == a + ("> " + d + "]: " + c);
    assert At(v, " ->", 1 + |s|) && At(v, " -> ", 1 + |s|);
    forall j | 2 <= j < 3 + |s| && j < |v|
      ensures v[j] != '>'
    {
      assert v[j] == a[j];
      if j <= |s| { assert a[j] == s[j - 1]; }
    }
    FindByWitness(v, " ->", 0, 1 + |s|, 2);
    FindByWitness(v, " -> ", 0, 1 + |s|, 2);
  }

  /** In `[s -> d]: c` the first "]:" closes the destination. */
  lemma CloseAfterDestination(s: string, d: string, c: string)
    requires ']' !in s && ']' !in d
    ensures Find(ChatLine(s, d, c), "]:") == 5 + |s| + |d|
  {
    var v := ChatLine(s, d, c);
    var b := "[" + s + " -> " + d;
    assert v == b + "]: " + c;
    assert v[|b|..|b| + 2] == "]:";
    assert ']' !in b;
    forall j | 0 <= j < |b| && j < |v|
      ensures v[j] != ']'
    {
      assert v[j] == b[j];
    }
    FindByWitness(v, "]:", 0, |b|, 0);
  }

  /** Searching for "]:" from the start of the destination finds the same closing mark. */
  lemma CloseFromDestination(s: string, d: string, c: string)
    requires ']' !in s && ']' !in d
    ensures FindFrom(ChatLine(s, d, c), "]:", 5 + |s|) == 5 + |s| + |d|
  {
    CloseAfterDestination(s, d, c);
    FindFromLater(ChatLine(s, d, c), "]:", 0, 5 + |s|);
  }

  /** The sender of `[s -> d]: c` reads back as `s`. */
  lemma SenderOfChatLine(s: string, d: string, c: string)
    requires '>' !in s
    ensures Contains(ChatLine(s, d, c), "[")
    ensures SenderOf(ChatLine(s, d, c)) == s
  {
    var v := ChatLine(s, d, c);
    assert At(v, "[", 0);
    FindFromIs(v, "[", 0, 0);
    ArrowAfterSender(s, d, c);
    assert v[1..1 + |s|] == s;
  }

  /** Where the three fields sit inside `[s -> d]: c`. */
  lemma ChatLineFields(s: string, d: string, c: string)
    ensures |ChatLine(s, d, c)| == 8 + |s| + |d| + |c|
    ensures ChatLine(s, d, c)[1..1 + |s|] == s
    ensures ChatLine(s, d, c)[5 + |s|..5 + |s| + |d|] == d
    ensures ChatLine(s, d, c)[7 + |s| + |d|..] == " " + c
  {
    var v := ChatLine(s, d, c);
    var a := "[" + s;
    var b := a + " -> " + d;
    assert v == a + (" -> " + d + "]: " + c);
    assert v == b + ("]:" + " " + c);
    assert v == b + "]:" + (" " + c);
    assert v[5 + |s|..5 + |s| + |d|] == b[5 + |s|..];
  }

  /** The destination in terms of the two searches it is built from. */
  lemma DestinationUnfold(v: string)
    requires Contains(v, " -> ")
    ensures DestinationOf(v) == Strip(Slice(v, Find(v, " -> ") + 4, FindFrom(v, "]:", Find(v, " -> ") + 4)))
  {
  }

  /** With the searches known, the raw destination slice is `d`. */
  lemma DestinationSlice(v: string, k: nat, d: string)
    requires Find(v, " -> ") == k && k + 4 + |d| <= |v|
    requires FindFrom(v, "]:", k + 4) == k + 4 + |d| && v[k + 4..k + 4 + |d|] == d
    ensures Contains(v, " -> ") && Slice(v, Find(v, " -> ") + 4, FindFrom(v, "]:", Find(v, " -> ") + 4)) == d
  {
  }

  /** The destination is read from the slice between " -> " and the next "]:". */
  lemma DestinationBetween(v: string, k: nat, d: string)
    requires Find(v, " -> ") == k && k + 4 + |d| <= |v|
    requires FindFrom(v, "]:", k + 4) == k + 4 + |d| && v[k + 4..k + 4 + |d|] == d
    ensures Contains(v, " -> ") && DestinationOf(v) == Strip(d)
  {
    DestinationSlice(v, k, d);
    DestinationUnfold(v);
  }

  /** The text in terms of the search it is built from. */
  lemma TextUnfold(v: string)
    requires Contains(v, "]:")
    ensures TextOf(v) == Strip(Slice(v, Find(v, "]:") + 2, |v|))
  {
  }

  /** With the search known, the raw text slice is the blank and `c`. */
  lemma TextSlice(v: string, e: nat, c: string)
    requires Find(v, "]:") == e && e + 2 <= |v| && v[e + 2..] == " " + c
    ensures Contains(v, "]:") && Slice(v, Find(v, "]:") + 2, |v|) == " " + c
  {
    assert v[e + 2..|v|] == v[e + 2..];
  }

  /** The text is read from the slice after the first "]:". */
  lemma TextAfter(v: string, e: nat, c: string)
    requires Find(v, "]:") == e && e + 2 <= |v| && v[e + 2..] == " " + c
    ensures Contains(v, "]:") && TextOf(v) == Strip(c)
  {
    TextSlice(v, e, c);
    TextUnfold(v);
    StripAfterBlank(c);
  }

  /** The destination of `[s -> d]: c` reads back as `d`, stripped. */
  lemma DestinationOfChatLine(s: string, d: string, c: string)
    requires '>' !in s && ']' !in s && ']' !in d
    ensures Contains(ChatLine(s, d, c), " -> ")
    ensures DestinationOf(ChatLine(s, d, c)) == Strip(d)
  {
    ArrowAfterSender(s, d, c);
    CloseFromDestination(s, d, c);
    ChatLineFields(s, d, c);
    DestinationBetween(ChatLine(s, d, c), 1 + |s|, d);
  }

  /** The text of `[s -> d]: c` reads back as `c`, stripped. */
  lemma TextOfChatLine(s: string, d: string, c: string)
    requires ']' !in s && ']' !in d
    ensures Contains(ChatLine(s, d, c), "]:")
    ensures TextOf(ChatLine(s, d, c)) == Strip(c)
  {
    CloseAfterDestination(s, d, c);
    ChatLineFields(s, d, c);
    TextAfter(ChatLine(s, d, c), 5 + |s| + |d|, c);
  }

  /** A private line addressed to the bot, as the relay forwards it, draws one answer: a
      private `msg` back to the sender with the model's answer to the stripped text. */
  lemma AnswersLinesForIt(s: string, c: string, ai: string -> string)
    requires Readable(s, BotName)
    ensures React(Render(MsgFrame(ChatLine(s, BotName, c))), ai) == Answer(Response(s, ai(Strip(c))))
  {
    var v := ChatLine(s, BotName, c);
    ParseChatLine(s, BotName, c);
    LabelsStripped();
    ReactOnLine(v, ai);
  }

  /** The bot's name and the broadcast label carry no surrounding whitespace. */
  lemma LabelsStripped()
    ensures Strip(BotName) == BotName
    ensures Strip(EveryoneLabel) == EveryoneLabel
  {
    WordStripped(BotName);
    WordStripped(EveryoneLabel);
  }

  lemma WordStripped(w: string)
    requires w == BotName || w == EveryoneLabel
    ensures Strip(w) == w
  {
    assert Stripped(w) by {
      assert w[0] in "Ct" && w[|w| - 1] in "ts";
    }
    StripStripped(w);
  }

  /** A relayed `msg` frame is handed to the line parser whole. */
  lemma ReactOnLine(v: string, ai: string -> string)
    ensures React(Render(MsgFrame(v)), ai)
         == match ParseLine(v)
            case None => Idle
            case Some(line) => if line.destination == BotName then Answer(Response(line.sender, ai(line.text))) else Idle
  {
    Client.SplitKeyRoundTrip("msg", v);
    assert Render(MsgFrame(v)) == "msg" + "=" + v;
  }

  /** A broadcast line `[s -> todos]: c` is never answered. */
  lemma IgnoresBroadcastLines(s: string, c: string, ai: string -> string)
    requires Readable(s, EveryoneLabel)
    ensures React(Render(MsgFrame(ChatLine(s, EveryoneLabel, c))), ai) == Idle
  {
    ParseChatLine(s, EveryoneLabel, c);
    LabelsStripped();
    ReactOnLine(ChatLine(s, EveryoneLabel, c), ai);
  }

  /** The condition on the sender is needed: a user named `x -> ChatBot]: y` who broadcasts
      `c` produces the line `[x -> ChatBot]: y -> todos]: c`, which the responder reads as a
      question to it from `x`, and answers to `x`. */
  lemma ForgedSenderAnswered(x: string, y: string, c: string, ai: string -> string)
    requires Readable(x, BotName)
    ensures React(Render(MsgFrame(ChatLine(x + " -> " + BotName + "]: " + y, EveryoneLabel, c))), ai)
         == Answer(Response(x, ai(Strip(y + " -> " + EveryoneLabel + "]: " + c))))
  {
    ForgedLine(x, BotName, y, EveryoneLabel, c);
    AnswersLinesForIt(x, y + " -> " + EveryoneLabel + "]: " + c, ai);
  }

  /** A sender name that holds ` -> d]: y` makes its line read as one from a shorter sender
      to `d`. */
  lemma ForgedLine(x: string, d: string, y: string, e: string, c: string)
    ensures ChatLine(x + " -> " + d + "]: " + y, e, c) == ChatLine(x, d, y + " -> " + e + "]: " + c)
  {
  }

  // ---------------------------------------------------------------------------------------
  // Substrings

  /** A slice that ends at or before the first occurrence of `sub` found from `start`, and
      begins at or after `start`, does not contain `sub`. */
  lemma SliceBeforeFirst(v: string, sub: string, start: nat, a: nat, k: nat)
    requires |sub| > 0 && start <= a <= k <= |v|
    requires forall j: nat :: start <= j < k ==> !At(v, sub, j)
    ensures !Contains(v[a..k], sub)
  {
    var w := v[a..k];
    assert v == v[..a] + w + v[k..];
    forall t: nat | t + |sub| <= |w|
      ensures !At(w, sub, t)
    {
      assert (v[..a] + w + v[k..])[a + t..a + t + |sub|] == w[t..t + |sub|];
      assert !At(v, sub, a + t);
    }
  }

  /** Stripping cannot create an occurrence. */
  lemma NotContainsStripped(t: string, sub: string)
    requires !Contains(t, sub)
    ensures !Contains(Strip(t), sub)
  {
    var a: nat, b: nat :| a <= b <= |t| && Strip(t) == t[a..b] && AllSpace(t[..a]) && AllSpace(t[b..]);
    assert t == t[..a] + t[a..b] + t[b..];
    if Contains(t[a..b], sub) {
      ContainsInfix(t[..a], t[a..b], t[b..], sub);
    }
  }

  /** A slice of a suffix is a slice of the whole. */
  lemma TextSliceIsSuffix(v: string, k: nat)
    requires k <= |v|
    ensures Slice(v, k, |v|) == v[k..]
  {
  }

  /** Stripping a suffix keeps a piece of the whole line. */
  lemma StripOfSuffix(v: string, f: nat)
    requires f <= |v|
    ensures exists a, b :: f <= a <= b <= |v| && v[a..b] == Strip(v[f..])
  {
    var a, b := StripBounds(v[f..]);
    SliceOfSuffix(v, f, a, b);
    assert v[f + a..f + b] == Strip(v[f..]);
  }

  lemma SliceOfSuffix(v: string, f: nat, a: nat, b: nat)
    requires f <= |v| && a <= b <= |v| - f
    ensures v[f..][a..b] == v[f + a..f + b]
  {
  }
}

=== FILE: client.dfy ===
/**
 The chat client's protocol logic: reading a relay frame (`key=value`), the `file` frame's
 three fields and size estimate, recognising the relay's registration notices, choosing a
 download filename that does not overwrite an existing one, and building the records the
 client sends.
 */
module Client {
  import opened Wrappers
  import opened Strings
  import opened Protocol

  // ---------------------------------------------------------------------------------------
  // Reading frames

  /** `msg.split("=", 1)` unpacked into `key, value`; `None` when the frame has no "=" (the
      unpacking raises and ends the receive loop). */
  function SplitKey(frame: string): (r: Option<(string, string)>)
    ensures r.None? <==> !Contains(frame, "=")
    ensures r.Some? ==> r.value.0 + "=" + r.value.1 == frame && !Contains(r.value.0, "=")
  {
    var parts := SplitN(frame, "=", 1);
    if |parts| == 2 then
      assert Join(parts, "=") == parts[0] + "=" + parts[1];
      ContainsMiddle(parts[0], "=", parts[1]);
      Some((parts[0], parts[1]))
    else None
  }

  /** The key is everything before the first "=", the value everything after it, further
      "=" characters included. */
  lemma SplitKeyRoundTrip(key: string, value: string)
    requires '=' !in key
    ensures SplitKey(key + "=" + value) == Some((key, value))
  {
    SplitNAfter(key, "=", value, 1);
  }

  /** A frame that splits into `key` and `value` starts with `key=` and continues with the
      value. */
  lemma KeyPrefix(frame: string, key: string, value: string)
    requires key + "=" + value == frame
    ensures |frame| > |key| && frame[..|key| + 1] == key + "=" && frame[|key| + 1..] == value
  {
  }

  /** The fields of a `file` frame: `value.split("||", 2)` when it yields three parts. */
  function FileFields(value: string): (r: Option<(string, string, string)>)
    ensures r.Some? ==> r.value.0 + FileSeparator + r.value.1 + FileSeparator + r.value.2 == value
    ensures r.Some? ==> !Contains(r.value.0, FileSeparator) && !Contains(r.value.1, FileSeparator)
    ensures r.Some? ==> |r.value.0| + |r.value.1| + 4 <= |value|
    ensures r.Some? ==> && |r.value.0| == Find(value, FileSeparator)
                        && |r.value.1| == Find(value[|r.value.0| + 2..], FileSeparator)
    ensures r.None? ==> (|| !Contains(value, FileSeparator)
                         || !Contains(value[Find(value, FileSeparator) + 2..], FileSeparator))
  {
    var parts := SplitN(value, FileSeparator, 2);
    if |parts| == 3 then
      ThreeParts(parts, FileSeparator);
      ThreeCuts(parts, FileSeparator);
      Some((parts[0], parts[1], parts[2]))
    else
      FewerThanTwoSeparators(value);
      None
  }

  /** Three parts whose first two hold no separator: they rejoin with two separators. */
  lemma ThreeParts(parts: seq<string>, sep: string)
    requires |parts| == 3 && NoneContain(parts[..2], sep)
    ensures !Contains(parts[0], sep) && !Contains(parts[1], sep)
    ensures Join(parts, sep) == parts[0] + sep + parts[1] + sep + parts[2]
  {
    var firstTwo := parts[..2];
    assert firstTwo[0] == parts[0] && firstTwo[1..] == [parts[1]];
    assert NoneContain([parts[1]], sep);
    var tail := parts[1..];
    assert tail[0] == parts[1] && tail[1..] == [parts[2]];
    assert Join(tail, sep) == parts[1] + sep + parts[2];
    assert Join(parts, sep) == parts[0] + sep + (parts[1] + sep + parts[2]);
  }

  /** Three parts cut at first occurrences: the first field ends at the first separator, and
      the second at the first separator after that one. */
  lemma ThreeCuts(parts: seq<string>, sep: string)
    requires |parts| == 3 && FirstCuts(parts, sep)
    ensures |parts[0]| == Find(Join(parts, sep), sep)
    ensures Join(parts, sep)[|parts[0]| + |sep|..] == Join(parts[1..], sep)
    ensures |parts[1]| == Find(Join(parts[1..], sep), sep)
  {
    assert FirstCuts(parts[1..], sep);
  }

  /** `split("||", 2)` yields fewer than three parts only when "||" is missing, or occurs
      just once. */
  lemma FewerThanTwoSeparators(value: string)
    requires |SplitN(value, FileSeparator, 2)| != 3
    ensures || !Contains(value, FileSeparator)
            || !Contains(value[Find(value, FileSeparator) + 2..], FileSeparator)
  {
    if Contains(value, FileSeparator) {
      SplitNUnfold(value, FileSeparator, 2);
      var t := SplitN(value[Find(value, FileSeparator) + 2..], FileSeparator, 1);
      assert |t| == 1;
    }
  }

  /** What one received frame means to the client. */
  datatype Incoming =
    | Closed                                                             // empty read or no "=": the loop ends
    | Chat(value: string)                                                // key `msg`
    | UserList(payload: string)                                          // key `online_users` (JSON text)
    | FileOffer(sender: string, filename: string, data: string, size: nat) // key `file`, three fields
    | BadFile                                                            // key `file`, fewer fields
    | Ignored                                                            // any other key

  /** The estimated decoded size of base64 data: three bytes per four characters. */
  function EstimatedSize(b64: string): nat
  {
    (|b64| * 3) / 4
  }

  /** The frame decoding of `handle_messages`. */
  function Decode(frame: string): (r: Incoming)
    ensures r.Closed? <==> !Contains(frame, "=")
  {
    match SplitKey(frame)
    case None => Closed
    case Some((key, value)) =>
      if key == "msg" then Chat(value)
      else if key == "online_users" then UserList(value)
      else if key == "file" then
        match FileFields(value)
        case Some((s, f, d)) => FileOffer(s, f, d, EstimatedSize(d))
        case None => BadFile
      else Ignored
  }

  /** A frame without "=" ends the loop; with one, its key selects the meaning and the value is
      the whole remainder. */
  lemma DecodeSplitsAtFirstEquals(frame: string)
    ensures Decode(frame).Closed? <==> !Contains(frame, "=")
    ensures Decode(frame).Chat? ==> frame == "msg=" + Decode(frame).value
  {
    var r := SplitKey(frame);
    if r.Some? && r.value.0 == "msg" {
      assert frame == "msg" + "=" + r.value.1;
    }
  }

  /** A relay `msg` frame is read back as its text, whatever the text contains. */
  lemma DecodeMsgFrame(text: string)
    ensures Decode(Render(MsgFrame(text))) == Chat(text)
  {
    SplitKeyRoundTrip("msg", text);
    assert Render(MsgFrame(text)) == "msg" + "=" + text;
  }

  /** The three fields joined by the separator are split back apart, provided the first two
      contain no "|". */
  lemma FileFieldsRoundTrip(sender: string, filename: string, data: string)
    requires '|' !in sender && '|' !in filename
    ensures FileFields(sender + FileSeparator + filename + FileSeparator + data) == Some((sender, filename, data))
  {
    var tail := filename + FileSeparator + data;
    var value := sender + FileSeparator + tail;
    assert sender + FileSeparator + filename + FileSeparator + data == value;
    SplitNAfter(sender, FileSeparator, tail, 2);
    SplitNAfter(filename, FileSeparator, data, 1);
    assert SplitN(value, FileSeparator, 2) == [sender, filename, data];
  }

  /** A `file=` frame is decided by the three-field split of its value. */
  lemma DecodeFile(value: string)
    ensures Decode("file=" + value)
         == match FileFields(value)
            case Some((s, f, d)) => FileOffer(s, f, d, EstimatedSize(d))
            case None => BadFile
  {
    SplitKeyRoundTrip("file", value);
    assert "file=" + value == "file" + "=" + value;
  }

  /** A relay `file` frame is read back as its three fields and the size estimate, provided the
      sender and the filename contain no "|". */
  lemma DecodeFileFrame(sender: string, filename: string, data: string)
    requires '|' !in sender && '|' !in filename
    ensures Decode(Render(FileFrame(sender, filename, data)))
         == FileOffer(sender, filename, data, (|data| * 3) / 4)
  {
    var value := sender + FileSeparator + filename + FileSeparator + data;
    assert Render(FileFrame(sender, filename, data)) == "file=" + value;
    DecodeFile(value);
    FileFieldsRoundTrip(sender, filename, data);
  }

  /** A `file` value without any `||` is reported as invalid. */
  lemma DecodeBadFile(value: string)
    requires !Contains(value, FileSeparator)
    ensures Decode("file=" + value) == BadFile
  {
    DecodeFile(value);
  }

  /** An `online_users` frame hands its JSON text to the user-list display. */
  lemma DecodeUsersFrame(us: seq<UserInfo>)
    ensures Decode(Render(UsersFrame(us))) == UserList(UsersJson(us))
  {
    SplitKeyRoundTrip("online_users", UsersJson(us));
    assert Render(UsersFrame(us)) == "online_users" + "=" + UsersJson(us);
  }

  // ---------------------------------------------------------------------------------------
  // Registration state

  /** How a `msg` value is read: a relay notice rejecting the name, the welcome, another
      relay notice, or a chat line. */
  datatype Reading = NameRejected | Welcome | ServerNote | UserText

  function Classify(value: string): (r: Reading)
    ensures r == UserText <==> !Contains(value, ServerTag)
    ensures r == NameRejected <==> Contains(value, ServerTag) && Contains(value, TakenPhrase)
    ensures r == Welcome <==> Contains(value, ServerTag) && !Contains(value, TakenPhrase) && Contains(value, WelcomePhrase)
  {
    if Contains(value, ServerTag) then
      if Contains(value, TakenPhrase) then NameRejected
      else if Contains(value, WelcomePhrase) then Welcome
      else ServerNote
    else UserText
  }

  /** The client's registration flags. */
  datatype Flags = Flags(nameRegistered: bool, waitingForName: bool)

  const Start: Flags := Flags(false, false)

  /** The client's reaction to one frame: new flags, records sent, and whether the receive
      loop goes on. */
  datatype Reaction = Reaction(flags: Flags, sends: seq<InRecord>, running: bool)

  function Receive(fl: Flags, frame: string): (r: Reaction)
    ensures r.running <==> Contains(frame, "=")
    ensures r.sends == [] || (r.sends == [UsersRequest(true).value] && r.flags == Flags(true, false))
    ensures Decode(frame).Chat? ==> r == OnChat(fl, Decode(frame).value)
    ensures !Decode(frame).Chat? ==> r.flags == fl && r.sends == []
  {
    match Decode(frame)
    case Closed => Reaction(fl, [], false)
    case Chat(value) => OnChat(fl, value)
    case _ => Reaction(fl, [], true)
  }

  /** The reaction to a `msg` value: a rejection clears registration and waits for a new
      name; the welcome sets registration and asks for the user list. */
  function OnChat(fl: Flags, value: string): (r: Reaction)
    ensures r.running
    ensures r.sends == [] || (r.sends == [UsersRequest(true).value] && r.flags == Flags(true, false))
    ensures r.flags != fl ==> Contains(value, ServerTag)
    ensures Contains(value, ServerTag) && Contains(value, TakenPhrase) ==>
              r.flags == Flags(false, true) && r.sends == []
    ensures Contains(value, ServerTag) && !Contains(value, TakenPhrase) && Contains(value, WelcomePhrase) ==>
              r.flags == Flags(true, false) && r.sends == [UsersRequest(true).value]
    ensures !Contains(value, ServerTag) || (!Contains(value, TakenPhrase) && !Contains(value, WelcomePhrase)) ==>
              r.flags == fl && r.sends == []
  {
    var n := Classify(value);
    if n == NameRejected then Reaction(Flags(false, true), [], true)
    else if n == Welcome then
      var fl' := Flags(true, false);
      Reaction(fl', OptionToSeq(UsersRequest(fl'.nameRegistered)), true)
    else Reaction(fl, [], true)
  }

  function OptionToSeq<T>(o: Option<T>): seq<T>
  {
    match o
    case Some(v) => [v]
    case None => []
  }

  /** A notice from the relay carries its tag. */
  lemma NoticeTagged(text: string)
    ensures Contains(Notice(text), ServerTag)
  {
    assert Notice(text) == [] + ServerTag + (" " + text);
    ContainsMiddle([], ServerTag, " " + text);
  }

  lemma TakenNoticeFacts(name: string)
    ensures Contains(NameTakenNotice(name), ServerTag)
    ensures Contains(NameTakenNotice(name), TakenPhrase)
  {
    var a := "❌ Nome '" + name + "' ";
    var post := "! Escolha outro nome.";
    NoticeTagged(a + TakenPhrase + post);
    NoticeMiddle(a, TakenPhrase, post);
    ContainsMiddle(ServerTag + " " + a, TakenPhrase, post);
  }

  lemma RetryNoticeFacts()
    ensures Contains(RetryNotice, ServerTag)
    ensures !Contains(RetryNotice, TakenPhrase)
    ensures !Contains(RetryNotice, WelcomePhrase)
  {
    NoticeTagged("Digite um novo nome:");
    assert TakenPhrase[0] == 'j' && WelcomePhrase[0] == 'B';
    CharNotInNotice('j', "Digite um novo nome:");
    CharNotInNotice('B', "Digite um novo nome:");
    NotContainsFirstChar(RetryNotice, TakenPhrase);
    NotContainsFirstChar(RetryNotice, WelcomePhrase);
  }

  lemma WelcomeNoticeFacts(name: string)
    ensures Contains(WelcomeNotice(name), ServerTag)
    ensures Contains(WelcomeNotice(name), WelcomePhrase)
  {
    var post := ", " + name + "!";
    NoticeTagged("✅ " + WelcomePhrase + ", " + name + "!");
    NoticeMiddle5("✅ ", WelcomePhrase, ", ", name, "!");
    ContainsMiddle(ServerTag + " " + "✅ ", WelcomePhrase, post);
  }

  /** A character outside the tag and the text is outside the notice. */
  lemma CharNotInNotice(c: char, text: string)
    requires c !in ServerTag && c != ' ' && c !in text
    ensures c !in Notice(text)
  {
  }

  /** A notice whose text holds `sub` between `a` and `c` holds it between the tagged `a`
      and `c`. */
  lemma NoticeMiddle(a: string, sub: string, c: string)
    ensures Notice(a + sub + c) == (ServerTag + " " + a) + sub + c
  {
  }

  /** The same, for a text built as `a + sub + c + d + e`. */
  lemma NoticeMiddle5(a: string, sub: string, c: string, d: string, e: string)
    ensures Notice(a + sub + c + d + e) == (ServerTag + " " + a) + sub + (c + d + e)
  {
  }

  /** The welcome contains the rejection phrase only if the name does. */
  lemma WelcomeNoticeClean(name: string)
    requires !Contains(name, TakenPhrase)
    ensures !Contains(WelcomeNotice(name), TakenPhrase)
  {
    var pre := ServerTag + " ✅ " + WelcomePhrase + ", ";
    assert WelcomeNotice(name) == pre + (name + "!");
    assert TakenPhrase[0] == 'j' && TakenPhrase[|TakenPhrase| - 1] == 'o';
    assert 'j' !in pre;
    NotContainsSnoc(name, '!', TakenPhrase);
    NotContainsConcat(pre, name + "!", TakenPhrase);
  }

  /** The relay's rejection notice marks the name as refused and the client as waiting for a
      new one, and the retry prompt after it changes nothing. */
  lemma RejectionRecognised(fl: Flags, name: string)
    ensures Receive(fl, Render(MsgFrame(NameTakenNotice(name)))) == Reaction(Flags(false, true), [], true)
    ensures Receive(fl, Render(MsgFrame(RetryNotice))) == Reaction(fl, [], true)
  {
    DecodeMsgFrame(NameTakenNotice(name));
    DecodeMsgFrame(RetryNotice);
    TakenNoticeFacts(name);
    RetryNoticeFacts();
  }

  /** Two relay frames in a row, as the relay sends them for a taken name, leave the client
      unregistered and waiting for a new name. */
  lemma RejectionSequence(fl: Flags, name: string)
    ensures var r1 := Receive(fl, Render(MsgFrame(NameTakenNotice(name))));
            var r2 := Receive(r1.flags, Render(MsgFrame(RetryNotice)));
            r2.flags == Flags(false, true) && r1.sends + r2.sends == []
  {
    RejectionRecognised(fl, name);
    RejectionRecognised(Flags(false, true), name);
  }

  /** The welcome marks the client registered and triggers a user-list request, unless the
      name itself contains the rejection phrase. */
  lemma WelcomeRecognised(fl: Flags, name: string)
    requires !Contains(name, TakenPhrase)
    ensures Receive(fl, Render(MsgFrame(WelcomeNotice(name))))
         == Reaction(Flags(true, false), [InRecord("online_usr", Placeholder, Placeholder, None)], true)
  {
    DecodeMsgFrame(WelcomeNotice(name));
    WelcomeNoticeFacts(name);
    WelcomeNoticeClean(name);
  }

  lemma WelcomeNoticeShowsName(name: string)
    requires Contains(name, TakenPhrase)
    ensures Contains(WelcomeNotice(name), TakenPhrase)
  {
    var pre := ServerTag + " ✅ " + WelcomePhrase + ", ";
    assert WelcomeNotice(name) == pre + name + "!";
    ContainsInfix(pre, name, "!", TakenPhrase);
  }

  /** The welcome for a name that contains the rejection phrase is read as a rejection: the
      client stays unregistered although the relay registered it. */
  lemma WelcomeMisreadForOddName(fl: Flags, name: string)
    requires Contains(name, TakenPhrase)
    ensures Receive(fl, Render(MsgFrame(WelcomeNotice(name)))) == Reaction(Flags(false, true), [], true)
  {
    DecodeMsgFrame(WelcomeNotice(name));
    WelcomeNoticeFacts(name);
    WelcomeNoticeShowsName(name);
  }

  /** A relayed chat line whose sender holds no "]" and whose destination no "[" is shown as
      chat exactly when its text does not contain the relay's tag. */
  lemma ChatLineReading(sender: string, destination: string, content: string)
    requires ']' !in sender && '[' !in destination
    ensures Classify(ChatLine(sender, destination, content)) == UserText
            <==> !Contains(content, ServerTag)
  {
    var a := "[" + sender + " ->";
    var b := destination + "]:";
    assert ChatLine(sender, destination, content) == (a + " " + b + " ") + content + [];
    if Contains(content, ServerTag) {
      ContainsInfix(a + " " + b + " ", content, [], ServerTag);
    } else {
      assert ServerTag[0] == '[' && ServerTag[9] == ']' && ' ' !in ServerTag;
      assert ']' !in a;
      NotContainsChar(a, ServerTag, 9);
      NotContainsChar(b, ServerTag, 0);
      NotContainsAcrossBlank(a, b, ServerTag);
      NotContainsAcrossBlank(a + " " + b, content, ServerTag);
      assert a + " " + b + " " + content == ChatLine(sender, destination, content);
    }
  }

  /** A chat text holding the relay's tag and the rejection phrase is taken for a rejection
      notice: whoever receives it drops its registration and asks for a new name. */
  lemma ChatMisreadAsRejection(fl: Flags, sender: string, destination: string, content: string)
    requires Contains(content, ServerTag) && Contains(content, TakenPhrase)
    ensures Receive(fl, Render(MsgFrame(ChatLine(sender, destination, content))))
            == Reaction(Flags(false, true), [], true)
  {
    var pre := "[" + sender + " -> " + destination + "]: ";
    assert ChatLine(sender, destination, content) == pre + content + [];
    DecodeMsgFrame(ChatLine(sender, destination, content));
    ContainsInfix(pre, content, [], ServerTag);
    ContainsInfix(pre, content, [], TakenPhrase);
  }

  // ---------------------------------------------------------------------------------------
  // Download filename

  /** Some character of `p[lo..hi]` is not a ".". */
  predicate HasNonDot(p: string, lo: int, hi: int)
  {
    exists k :: 0 <= lo <= k < hi <= |p| && p[k] != '.'
  }

  /** `os.path.splitext` on a POSIX path: the extension starts at the last "." of the last path
      component when a character other than "." precedes it within that component. */
  function SplitExt(p: string): (r: (string, string))
    ensures r.0 + r.1 == p
    ensures r.1 == [] || (r.1[0] == '.' && '/' !in r.1 && '.' !in r.1[1..])
    ensures r.1 != [] <==> DotAfterNonDot(p)
  {
    var sep := LastIndexOf(p, '/');
    var dot := LastIndexOf(p, '.');
    DotAfterNonDotIff(p, sep, dot);
    if dot > sep && HasNonDot(p, sep + 1, dot) then
      ExtensionFacts(p, sep, dot);
      (p[..dot], p[dot..])
    else (p, [])
  }

  /** The last path component holds a "." with some other character before it. */
  predicate DotAfterNonDot(p: string)
  {
    exists k, i :: 0 <= k < i < |p| && p[k] != '.' && p[i] == '.' && '/' !in p[k..]
  }

  lemma DotAfterNonDotIff(p: string, sep: int, dot: int)
    requires sep == LastIndexOf(p, '/') && dot == LastIndexOf(p, '.')
    ensures DotAfterNonDot(p) <==> dot > sep && HasNonDot(p, sep + 1, dot)
  {
    if dot > sep && HasNonDot(p, sep + 1, dot) {
      var k :| 0 <= sep + 1 <= k < dot <= |p| && p[k] != '.';
      NoSlashAfterLast(p, sep, k);
      assert p[dot] == '.';
    }
    if DotAfterNonDot(p) {
      var k, i :| 0 <= k < i < |p| && p[k] != '.' && p[i] == '.' && '/' !in p[k..];
      LastBefore(p, '/', k);
      LastAtLeast(p, '.', i);
    }
  }

  /** Past the last "/", a path holds no "/". */
  lemma NoSlashAfterLast(p: string, sep: int, k: nat)
    requires sep == LastIndexOf(p, '/') && sep < k <= |p|
    ensures '/' !in p[k..]
  {
    forall j | k <= j < |p|
      ensures p[j] != '/'
    {
      if sep >= 0 {
        assert p[j] == p[sep + 1..][j - sep - 1];
      } else {
        assert p[j] in p;
      }
    }
  }

  /** A character absent from `p[k..]` last occurs before `k`. */
  lemma LastBefore(p: string, c: char, k: nat)
    requires k <= |p| && c !in p[k..]
    ensures LastIndexOf(p, c) < k
  {
  }

  /** An occurrence at `i` is no later than the last one. */
  lemma LastAtLeast(p: string, c: char, i: nat)
    requires i < |p| && p[i] == c
    ensures LastIndexOf(p, c) >= i
  {
  }

  lemma ExtensionFacts(p: string, sep: int, dot: int)
    requires sep == LastIndexOf(p, '/') && dot == LastIndexOf(p, '.') && dot > sep
    ensures p[dot] == '.' && '/' !in p[dot..] && '.' !in p[dot..][1..]
  {
    assert p[dot..][1..] == p[dot + 1..];
    NoSlashAfterLast(p, sep, dot);
  }

  /** The `k`-th alternative name: `base_k` followed by the extension. */
  function Candidate(filename: string, k: nat): (r: string)
    ensures |r| == |filename| + 1 + |NatToString(k)|
  {
    var (base, ext) := SplitExt(filename);
    base + "_" + NatToString(k) + ext
  }

  /** The name tried at attempt `i`: the original first, then the alternatives in order. */
  function Attempt(filename: string, i: nat): (r: string)
    ensures i == 0 <==> r == filename
  {
    if i == 0 then filename else Candidate(filename, i)
  }

  lemma AttemptInjective(filename: string, i: nat, j: nat)
    requires Attempt(filename, i) == Attempt(filename, j)
    ensures i == j
  {
    var (base, ext) := SplitExt(filename);
    if i != 0 && j != 0 {
      var a := Attempt(filename, i);
      var si := NatToString(i);
      var sj := NatToString(j);
      CandidateParts(filename, base, ext, i);
      CandidateParts(filename, base, ext, j);
      assert |si| == |sj|;
      assert si == a[|base| + 1..|base| + 1 + |si|];
      assert sj == a[|base| + 1..|base| + 1 + |sj|];
      NatToStringInjective(i, j);
    }
  }

  /** The first `n` attempts as a set. */
  ghost function Attempts(filename: string, n: nat): (r: set<string>)
    ensures forall i :: 0 <= i < n ==> Attempt(filename, i) in r
    ensures forall x :: x in r ==> exists i :: 0 <= i < n && x == Attempt(filename, i)
  {
    if n == 0 then {} else Attempts(filename, n - 1) + {Attempt(filename, n - 1)}
  }

  /** The first `n` attempts are `n` distinct names. */
  lemma {:induction false} AttemptsCount(filename: string, n: nat)
    ensures |Attempts(filename, n)| == n
  {
    if n > 0 {
      AttemptsCount(filename, n - 1);
      var last := Attempt(filename, n - 1);
      if last in Attempts(filename, n - 1) {
        var i :| 0 <= i < n - 1 && last == Attempt(filename, i);
        AttemptInjective(filename, i, n - 1);
      }
    }
  }

  /** If the first `n` attempts are all taken, there are at least `n` existing names. */
  /** The `k`-th attempt is built from the pieces `os.path.splitext` returns. */
  lemma CandidateParts(filename: string, base: string, ext: string, k: nat)
    requires SplitExt(filename) == (base, ext) && k >= 1
    ensures Attempt(filename, k) == base + "_" + NatToString(k) + ext
  {
  }

  lemma TakenBound(filename: string, n: nat, existing: set<string>)
    requires forall i :: 0 <= i < n ==> Attempt(filename, i) in existing
    ensures n <= |existing|
  {
    AttemptsCount(filename, n);
    SubsetCard(Attempts(filename, n), existing);
  }

  lemma {:induction false} SubsetCard<T>(a: set<T>, b: set<T>)
    requires a <= b
    ensures |a| <= |b|
    decreases |a|
  {
    if a != {} {
      var x :| x in a;
      SubsetCard(a - {x}, b - {x});
    }
  }

  /** The download filename chosen in `process_file_offer`, the existing files of the
      downloads folder given as a set: the original name when it is free, otherwise
      `base_k` + extension for the least `k >= 1` that is free. */
  method DownloadName(filename: string, existing: set<string>) returns (name: string)
    ensures name !in existing
    ensures filename !in existing ==> name == filename
    ensures filename in existing ==>
              exists k :: 1 <= k && name == Candidate(filename, k)
                          && forall j :: 1 <= j < k ==> Candidate(filename, j) in existing
  {
    var (base, ext) := SplitExt(filename);
    var counter: nat := 1;
    name := filename;
    while name in existing
      invariant counter >= 1
      invariant name == Attempt(filename, counter - 1)
      invariant forall i :: 0 <= i < counter - 1 ==> Attempt(filename, i) in existing
      decreases |existing| - (counter - 1)
    {
      TakenBound(filename, counter, existing);
      CandidateParts(filename, base, ext, counter);
      name := base + "_" + NatToString(counter) + ext;
      counter := counter + 1;
    }
    if filename in existing {
      var k := counter - 1;
      assert name == Candidate(filename, k);
      forall j | 1 <= j < k
        ensures Candidate(filename, j) in existing
      {
        assert Attempt(filename, j) in existing;
      }
    }
  }

  // ---------------------------------------------------------------------------------------
  // Records the client sends

  /** `send_message`: the entry text, stripped, as a broadcast; nothing before registration or
      for a blank entry. */
  function GlobalMessage(registered: bool, entry: string): (r: Option<InRecord>)
    ensures r.Some? <==> registered && !AllSpace(entry)
    ensures r.Some? ==> && r.value.kind == "msg" && r.value.control == BroadcastMarker
                        && r.value.message == Strip(entry) && Stripped(r.value.message)
                        && r.value.message != [] && r.value.filename.None?
  {
    if !registered then None
    else
      var message := Strip(entry);
      if message == [] then None
      else Some(InRecord("msg", BroadcastMarker, message, None))
  }

  /** `send_private_message` once the recipient is chosen: the text as given, addressed to the
      recipient; nothing before registration or for an empty text. */
  function PrivateMessage(registered: bool, target: string, message: string): (r: Option<InRecord>)
    ensures r.Some? <==> registered && message != []
    ensures r.Some? ==> r.value == InRecord("msg", target, message, None)
  {
    if !registered || message == [] then None
    else Some(InRecord("msg", target, message, None))
  }

  /** `send_file` once the file is read and encoded: to everybody when `target` is `None`,
      otherwise to the named user, with the file's name. */
  function FileRecord(registered: bool, target: Option<string>, filename: string, data: string): (r: Option<InRecord>)
    ensures r.Some? <==> registered
    ensures r.Some? ==> && r.value.kind == "file" && r.value.message == data
                        && r.value.filename == Some(filename)
                        && (target.None? ==> r.value.control == BroadcastMarker)
                        && (target.Some? ==> r.value.control == target.value)
  {
    if !registered then None
    else Some(InRecord("file", target.GetOr(BroadcastMarker), data, Some(filename)))
  }

  /** `refresh_users`: a user-list request with placeholders, only once registered. */
  function UsersRequest(registered: bool): (r: Option<InRecord>)
    ensures r.Some? <==> registered
    ensures r.Some? ==> r.value.kind == "online_usr" && r.value.control == Placeholder
                        && r.value.message == Placeholder
  {
    if registered then Some(InRecord("online_usr", Placeholder, Placeholder, None)) else None
  }

  /** `request_name`: the typed name in `message`; nothing for an empty answer. */
  function NameRecord(name: string): (r: Option<InRecord>)
    ensures r.Some? <==> name != []
    ensures r.Some? ==> r.value.kind == "name" && r.value.message == name && r.value.control == Placeholder
  {
    if name == [] then None else Some(InRecord("name", Placeholder, name, None))
  }
}

=== FILE: flows.dfy ===
/**
 Whole exchanges: a record built by a client, one relay step on it, and what the receiving
 client or the responder makes of the frame that arrives.
 */
module Flows {
  import opened Wrappers
  import opened Strings
  import opened Protocol
  import opened Registry
  import opened Store
  import Server
  import Client
  import Bot

  /** Registering a free name: the client's `name` record is accepted, and the welcome that
      comes back sets the client's flags and makes it ask for the user list (names that
      themselves contain the "taken" phrase excepted). */
  lemma RegistrationAccepted(st: Server.State, h: Server.Handler, name: string, fl: Client.Flags)
    requires name != [] && !Contains(name, TakenPhrase)
    requires forall i :: 0 <= i < |st.connections| ==> st.connections[i].name != name
    ensures var rec := Client.NameRecord(name).value;
            var o := Server.Step(st, h, rec);
            && o.handler.userConn == Some(Entry(h.conn, h.addr, name))
            && o.out[0].to == h.conn
            && Client.Receive(fl, Render(o.out[0].frame))
               == Client.Reaction(Client.Flags(true, false), [Client.UsersRequest(true).value], true)
  {
    Server.FreshNameRegistered(st, h, Client.NameRecord(name).value);
    Client.WelcomeRecognised(fl, name);
  }

  /** Registering a taken name: nothing changes at the relay, and after the two notices the
      client is unregistered and waiting for a new name. */
  lemma RegistrationRefused(st: Server.State, h: Server.Handler, name: string, k: nat, fl: Client.Flags)
    requires name != []
    requires k < |st.connections| && st.connections[k].name == name
    ensures var rec := Client.NameRecord(name).value;
            var o := Server.Step(st, h, rec);
            && o.state == st && |o.out| == 2
            && var r1 := Client.Receive(fl, Render(o.out[0].frame));
               var r2 := Client.Receive(r1.flags, Render(o.out[1].frame));
               r2.flags == Client.Flags(false, true) && r1.sends + r2.sends == []
  {
    Server.DuplicateNameRejected(st, h, Client.NameRecord(name).value, k);
    Client.RejectionSequence(fl, name);
  }

  /** A global chat line: the stripped text is stored for "all", and every other registered
      connection, in registry order, receives `[sender -> todos]: text`. A receiving client
      shows it as chat exactly when the text does not contain the relay's tag (for a sender
      without "]" in the name). */
  lemma GlobalChatDelivered(st: Server.State, h: Server.Handler, entry: string)
    requires h.userConn.Some? && !AllSpace(entry)
    ensures var rec := Client.GlobalMessage(true, entry).value;
            var o := Server.Step(st, h, rec);
            var u := h.userConn.value;
            var line := ChatLine(u.name, EveryoneLabel, Strip(entry));
            && o.state.globalMessages == st.globalMessages + [Stored(u.name, "all", Text, Strip(entry))]
            && o.out == Server.Fanout(Server.Recipients(st.connections, u.conn), MsgFrame(line))
            && (forall d :: d in o.out ==> d.frame == MsgFrame(line) && d.to != u.conn)
            && Client.Decode(Render(MsgFrame(line))) == Client.Chat(line)
            && (']' !in u.name ==> (Client.Classify(line) == Client.UserText <==> !Contains(Strip(entry), ServerTag)))
  {
    var rec := Client.GlobalMessage(true, entry).value;
    var u := h.userConn.value;
    var m := Stored(u.name, "all", Text, Strip(entry));
    var line := ChatLine(u.name, EveryoneLabel, Strip(entry));
    assert Server.NewRecord(u.name, rec) == m;
    assert RecordFrame(m, false) == MsgFrame(line);
    Server.BroadcastFansOut(st, h, rec);
    RecipientsSeeLine(Server.Step(st, h, rec).out, Server.Recipients(st.connections, u.conn), u.conn, MsgFrame(line));
    Client.DecodeMsgFrame(line);
    BroadcastLineReading(u.name, Strip(entry));
  }

  lemma BroadcastLineReading(sender: string, text: string)
    ensures ']' !in sender ==> (Client.Classify(ChatLine(sender, EveryoneLabel, text)) == Client.UserText
                                <==> !Contains(text, ServerTag))
  {
    if ']' !in sender {
      assert '[' !in EveryoneLabel;
      Client.ChatLineReading(sender, EveryoneLabel, text);
    }
  }

  /** A global text holding the relay's tag and the rejection phrase reaches every other
      connection as a line that its client takes for a rejection notice: each recipient drops
      its registration and waits for a new name. */
  lemma GlobalChatMisread(st: Server.State, h: Server.Handler, entry: string, fl: Client.Flags)
    requires h.userConn.Some? && !AllSpace(entry)
    requires Contains(Strip(entry), ServerTag) && Contains(Strip(entry), TakenPhrase)
    ensures var o := Server.Step(st, h, Client.GlobalMessage(true, entry).value);
            forall d :: d in o.out ==> Client.Receive(fl, Render(d.frame)) == Client.Reaction(Client.Flags(false, true), [], true)
  {
    GlobalChatDelivered(st, h, entry);
    Client.ChatMisreadAsRejection(fl, h.userConn.value.name, EveryoneLabel, Strip(entry));
  }

  lemma RecipientsSeeLine(out: seq<Delivery>, rs: seq<Entry>, c: ConnId, f: Frame)
    requires out == Server.Fanout(rs, f)
    requires forall e :: e in rs ==> e.conn != c
    ensures forall d :: d in out ==> d.frame == f && d.to != c
  {
    forall d | d in out
      ensures d.frame == f && d.to != c
    {
      var i :| 0 <= i < |out| && out[i] == d;
      assert rs[i] in rs;
    }
  }

  /** The responder never answers a global chat line relayed to it from a sender without
      ">" or "]" in the name. */
  lemma BotIgnoresGlobalChat(sender: string, entry: string, ai: string -> string)
    requires Bot.Readable(sender, EveryoneLabel)
    ensures Bot.React(Render(MsgFrame(ChatLine(sender, EveryoneLabel, Strip(entry)))), ai) == Bot.Idle
  {
    Bot.IgnoresBroadcastLines(sender, Strip(entry), ai);
  }

  /** A private question to the responder reaches only the responder's connection, and the
      responder answers it with the model's reply to the stripped question, addressed to the
      asker (whose name holds no ">" or "]"). */
  lemma QuestionReachesBot(st: Server.State, h: Server.Handler, question: string, k: nat, ai: string -> string)
    requires h.userConn.Some? && UniqueNames(st.connections)
    requires k < |st.connections| && st.connections[k].name == Bot.BotName
    requires question != [] && Bot.Readable(h.userConn.value.name, Bot.BotName)
    ensures var rec := Client.PrivateMessage(true, Bot.BotName, question).value;
            var o := Server.Step(st, h, rec);
            var asker := h.userConn.value.name;
            && o.out == [Delivery(st.connections[k].conn, MsgFrame(ChatLine(asker, Bot.BotName, question)))]
            && Bot.React(Render(o.out[0].frame), ai) == Bot.Answer(Bot.Response(asker, ai(Strip(question))))
  {
    var rec := Client.PrivateMessage(true, Bot.BotName, question).value;
    Server.PrivateDelivered(st, h, rec, k);
    Bot.AnswersLinesForIt(h.userConn.value.name, question, ai);
  }

  /** The responder's answer is relayed privately to the asker, shown as
      `[ChatBot -> asker]: 🤖 answer`. */
  lemma AnswerReachesAsker(st: Server.State, hb: Server.Handler, j: nat, answer: string)
    requires hb.userConn.Some? && hb.userConn.value.name == Bot.BotName
    requires UniqueNames(st.connections)
    requires j < |st.connections| && st.connections[j].name != BroadcastMarker
    ensures var o := Server.Step(st, hb, Bot.Response(st.connections[j].name, answer));
            o.out == [Delivery(st.connections[j].conn,
                               MsgFrame(ChatLine(Bot.BotName, st.connections[j].name, Bot.ReplyPrefix + answer)))]
  {
    Server.PrivateDelivered(st, hb, Bot.Response(st.connections[j].name, answer), j);
  }

  /** An asker named `4all` gets no private answer: the relay takes the answer's destination
      for the broadcast marker, stores it globally for "all" and sends it to every other
      connection as `[ChatBot -> todos]: 🤖 answer`. */
  lemma AnswerToBroadcastNameIsBroadcast(st: Server.State, hb: Server.Handler, answer: string)
    requires hb.userConn.Some? && hb.userConn.value.name == Bot.BotName
    ensures var o := Server.Step(st, hb, Bot.Response(BroadcastMarker, answer));
            var text := Bot.ReplyPrefix + answer;
            && o.state.globalMessages == st.globalMessages + [Stored(Bot.BotName, "all", Text, text)]
            && o.state.privateMessages == st.privateMessages
            && o.out == Server.Fanout(Server.Recipients(st.connections, hb.userConn.value.conn),
                                      MsgFrame(ChatLine(Bot.BotName, EveryoneLabel, text)))
  {
    var rec := Bot.Response(BroadcastMarker, answer);
    var m := Stored(Bot.BotName, "all", Text, Bot.ReplyPrefix + answer);
    assert Server.NewRecord(Bot.BotName, rec) == m;
    assert RecordFrame(m, false) == MsgFrame(ChatLine(Bot.BotName, EveryoneLabel, Bot.ReplyPrefix + answer));
    Server.BroadcastFansOut(st, hb, rec);
  }

  /** A file addressed to a user named `4all` is a global file: it is stored globally under
      the raw destination `4all` and sent to every other connection. */
  lemma FileToBroadcastNameIsBroadcast(st: Server.State, h: Server.Handler, filename: string, data: string)
    requires h.userConn.Some?
    ensures var rec := Client.FileRecord(true, Some(BroadcastMarker), filename, data).value;
            var o := Server.Step(st, h, rec);
            var u := h.userConn.value;
            && o.state.globalMessages == st.globalMessages + [Stored(u.name, BroadcastMarker, Attachment(filename), data)]
            && o.state.privateMessages == st.privateMessages
            && o.out == Server.Fanout(Server.Recipients(st.connections, u.conn), FileFrame(u.name, filename, data))
  {
    var rec := Client.FileRecord(true, Some(BroadcastMarker), filename, data).value;
    var u := h.userConn.value;
    var m := Stored(u.name, BroadcastMarker, Attachment(filename), data);
    assert Server.NewRecord(u.name, rec) == m;
    assert RecordFrame(m, false) == FileFrame(u.name, filename, data);
    Server.BroadcastFansOut(st, h, rec);
  }

  /** A file sent to one user arrives at that user's connection only, and is decoded there as
      an offer carrying the sender, the file's name, the payload and its estimated size. */
  lemma PrivateFileDelivered(st: Server.State, h: Server.Handler, k: nat, filename: string, data: string)
    requires h.userConn.Some? && UniqueNames(st.connections)
    requires k < |st.connections| && st.connections[k].name != BroadcastMarker
    requires '|' !in h.userConn.value.name && '|' !in filename
    ensures var rec := Client.FileRecord(true, Some(st.connections[k].name), filename, data).value;
            var o := Server.Step(st, h, rec);
            var sender := h.userConn.value.name;
            && o.out == [Delivery(st.connections[k].conn, FileFrame(sender, filename, data))]
            && Client.Decode(Render(o.out[0].frame))
               == Client.FileOffer(sender, filename, data, (|data| * 3) / 4)
  {
    var rec := Client.FileRecord(true, Some(st.connections[k].name), filename, data).value;
    Server.PrivateDelivered(st, h, rec, k);
    Client.DecodeFileFrame(h.userConn.value.name, filename, data);
  }
}

=== FILE: protocol.dfy ===
/**
 The wire vocabulary shared by the relay and its clients: the inbound record a client
 sends (decoded from JSON), the outbound frames the relay writes (`msg=…`, `file=…`,
 `online_users=…`), the relay's fixed notice texts and the chat-line format.
 */
module Protocol {
  import opened Wrappers
  import opened Strings

  /** An accepted connection, standing for its socket object (compared by identity). */
  type ConnId = nat

  /** A client→relay record: `type`, `control`, `message` and the optional `filename`. */
  datatype InRecord = InRecord(kind: string, control: string, message: string, filename: Option<string>)

  /** The `control` value that addresses everybody. */
  const BroadcastMarker: string := "4all"
  /** The `control`/`message` value meaning "ignored for this kind". */
  const Placeholder: string := "dontcare"
  /** The filename used when a `file` record carries none. */
  const DefaultFilename: string := "arquivo_recebido"

  /** One row of the online-user list: a name and its `ip:port` address. */
  datatype UserInfo = UserInfo(name: string, addr: string)

  /** A relay→client frame before it is written to the socket. */
  datatype Frame =
    | MsgFrame(text: string)
    | FileFrame(sender: string, filename: string, data: string)
    | UsersFrame(users: seq<UserInfo>)

  /** One frame written to one connection. */
  datatype Delivery = Delivery(to: ConnId, frame: Frame)

  /** The separator between the three fields of a `file` frame. */
  const FileSeparator: string := "||"

  /** `json.dumps` of the user list with its default separators; strings are written
      without escaping. */
  function UsersJson(us: seq<UserInfo>): string
  {
    "[" + UsersJsonItems(us) + "]"
  }

  function UserJson(u: UserInfo): string
  {
    "{\"name\": \"" + u.name + "\", \"addr\": \"" + u.addr + "\"}"
  }

  function UsersJsonItems(us: seq<UserInfo>): string
  {
    if us == [] then ""
    else if |us| == 1 then UserJson(us[0])
    else UserJson(us[0]) + ", " + UsersJsonItems(us[1..])
  }

  /** The text a frame puts on the wire: `<tag>=<payload>`. */
  function Render(f: Frame): string
  {
    match f
    case MsgFrame(t) => "msg=" + t
    case FileFrame(s, n, d) => "file=" + s + FileSeparator + n + FileSeparator + d
    case UsersFrame(us) => "online_users=" + UsersJson(us)
  }

  /** A chat line as the relay formats it: `[sender -> destination]: content`. */
  function ChatLine(sender: string, destination: string, content: string): string
  {
    "[" + sender + " -> " + destination + "]: " + content
  }

  /** The word a broadcast line shows as its destination. */
  const EveryoneLabel: string := "todos"

  /** Every relay notice starts with this tag. */
  const ServerTag: string := "[Servidor]:"

  function Notice(text: string): string
  {
    ServerTag + " " + text
  }

  /** The phrase that marks a rejected name. */
  const TakenPhrase: string := "já está sendo usado"
  /** The phrase that marks a successful registration. */
  const WelcomePhrase: string := "Bem-vindo ao chat"

  function NameTakenNotice(name: string): string
  {
    Notice("❌ Nome '" + name + "' " + TakenPhrase + "! Escolha outro nome.")
  }

  const RetryNotice: string := Notice("Digite um novo nome:")

  function WelcomeNotice(name: string): string
  {
    Notice("✅ " + WelcomePhrase + ", " + name + "!")
  }

  const NotNamedNotice: string := Notice("❌ Você precisa definir um nome primeiro!")

  function UnknownUserNotice(destination: string): string
  {
    Notice("❌ Usuário '" + destination + "' não encontrado ou offline.")
  }

  function FileNotDeliveredNotice(destination: string, filename: string): string
  {
    Notice("❌ Usuário '" + destination + "' não encontrado. Arquivo '" + filename + "' não foi entregue.")
  }
}

=== FILE: registry.dfy ===
/**
 The relay's session registry: the ordered `connections` list of
 `{conn, addr, name}` entries and the searches, snapshot and removals the relay
 performs on it.
 */
module Registry {
  import opened Wrappers
  import opened Strings
  import opened Protocol

  /** A remote address: the `(ip, port)` pair returned by `accept`. */
  datatype Addr = Addr(ip: string, port: nat)

  /** One registry entry, created when a connection registers a name. */
  datatype Entry = Entry(conn: ConnId, addr: Addr, name: string)

  /** No two entries share a name (names compare exactly, case-sensitively). */
  predicate UniqueNames(cs: seq<Entry>)
  {
    forall i, j :: 0 <= i < j < |cs| ==> cs[i].name != cs[j].name
  }

  /** `name_already_exists`: a scan of the entries for one holding `name`. */
  predicate NameInUse(cs: seq<Entry>, name: string)
    ensures NameInUse(cs, name) <==> exists i :: 0 <= i < |cs| && cs[i].name == name
  {
    if cs == [] then false
    else if cs[0].name == name then true
    else
      assert forall i :: 1 <= i < |cs| ==> cs[i] == cs[1..][i - 1];
      NameInUse(cs[1..], name)
  }

  /** The index of the first entry holding `name`, or -1. */
  function IndexOfName(cs: seq<Entry>, name: string): (i: int)
    ensures -1 <= i < |cs|
    ensures i >= 0 ==> cs[i].name == name && forall j :: 0 <= j < i ==> cs[j].name != name
    ensures i == -1 <==> forall j :: 0 <= j < |cs| ==> cs[j].name != name
  {
    if cs == [] then -1
    else if cs[0].name == name then 0
    else
      var k := IndexOfName(cs[1..], name);
      assert forall j :: 1 <= j < |cs| ==> cs[j] == cs[1..][j - 1];
      if k < 0 then -1 else k + 1
  }

  /** `search_name_in_connections`: the first entry holding `name`, if any. */
  function FindByName(cs: seq<Entry>, name: string): (r: Option<Entry>)
    ensures r.None? <==> !NameInUse(cs, name)
    ensures r.Some? ==> r.value in cs && r.value.name == name
  {
    var i := IndexOfName(cs, name);
    if i < 0 then None else Some(cs[i])
  }

  /** In a registry with unique names, the entry found for a name is the only one holding it. */
  lemma FindByNameUnique(cs: seq<Entry>, name: string, k: nat)
    requires UniqueNames(cs)
    requires k < |cs| && cs[k].name == name
    ensures FindByName(cs, name) == Some(cs[k])
  {
    var i := IndexOfName(cs, name);
    assert i >= 0;
  }

  /** The `ip:port` rendering of an address. */
  function AddrText(a: Addr): string
  {
    a.ip + ":" + NatToString(a.port)
  }

  function Info(e: Entry): UserInfo
  {
    UserInfo(e.name, AddrText(e.addr))
  }

  /** The entries whose name differs from `me`, in registry order. */
  function Others(cs: seq<Entry>, me: string): (r: seq<Entry>)
    ensures |r| <= |cs|
    ensures forall e :: e in r <==> e in cs && e.name != me
  {
    if cs == [] then []
    else (if cs[0].name != me then [cs[0]] else []) + Others(cs[1..], me)
  }

  /** The list `send_online_users_list` serialises for the requester named `me`. */
  function OnlineUsers(cs: seq<Entry>, me: string): (us: seq<UserInfo>)
    ensures |us| == |Others(cs, me)|
    ensures forall i :: 0 <= i < |us| ==> us[i] == Info(Others(cs, me)[i])
  {
    var o := Others(cs, me);
    seq(|o|, i requires 0 <= i < |o| => Info(o[i]))
  }

  /** The index of the first entry equal to `e`, or -1. */
  function IndexOf(cs: seq<Entry>, e: Entry): (i: int)
    ensures -1 <= i < |cs|
    ensures i >= 0 ==> cs[i] == e && e !in cs[..i]
    ensures i == -1 <==> e !in cs
  {
    if cs == [] then -1
    else if cs[0] == e then 0
    else
      var k := IndexOf(cs[1..], e);
      assert cs == [cs[0]] + cs[1..];
      if k < 0 then -1
      else
        assert cs[..k + 1] == [cs[0]] + cs[1..][..k];
        k + 1
  }

  /** Python's `list.remove(e)`: drops the first entry equal to `e`; when there is none the
      list is left as it is (Python raises instead, outside the handler's `try`). */
  function RemoveFirst(cs: seq<Entry>, e: Entry): (r: seq<Entry>)
    ensures e !in cs ==> r == cs
    ensures e in cs ==> |r| == |cs| - 1 && multiset(r) == multiset(cs) - multiset{e}
    ensures e in cs ==> exists i :: 0 <= i < |cs| && cs[i] == e && e !in cs[..i] && r == cs[..i] + cs[i + 1..]
    ensures forall x :: x != e ==> (x in r <==> x in cs)
  {
    var i := IndexOf(cs, e);
    if i < 0 then cs
    else
      assert cs == cs[..i] + [cs[i]] + cs[i + 1..];
      cs[..i] + cs[i + 1..]
  }

  /** The index of the first entry of connection `c`, or -1. */
  function IndexOfConn(cs: seq<Entry>, c: ConnId): (i: int)
    ensures -1 <= i < |cs|
    ensures i >= 0 ==> cs[i].conn == c && forall j :: 0 <= j < i ==> cs[j].conn != c
    ensures i == -1 <==> forall j :: 0 <= j < |cs| ==> cs[j].conn != c
  {
    if cs == [] then -1
    else if cs[0].conn == c then 0
    else
      var k := IndexOfConn(cs[1..], c);
      assert forall j :: 1 <= j < |cs| ==> cs[j] == cs[1..][j - 1];
      if k < 0 then -1 else k + 1
  }

  /** The cleanup for a connection that never registered: drop its first entry, if any. */
  function RemoveConn(cs: seq<Entry>, c: ConnId): (r: seq<Entry>)
    ensures (forall j :: 0 <= j < |cs| ==> cs[j].conn != c) ==> r == cs
    ensures forall x: Entry :: x.conn != c ==> (x in r <==> x in cs)
  {
    var i := IndexOfConn(cs, c);
    if i < 0 then cs
    else
      assert cs == cs[..i] + [cs[i]] + cs[i + 1..];
      cs[..i] + cs[i + 1..]
  }

  /** Deleting the entry at one index keeps the registry's names unique. */
  lemma DeleteAtKeepsUnique(cs: seq<Entry>, i: nat)
    requires UniqueNames(cs) && i < |cs|
    ensures UniqueNames(cs[..i] + cs[i + 1..])
  {
    var r := cs[..i] + cs[i + 1..];
    assert forall a :: 0 <= a < |r| ==> r[a] == cs[if a < i then a else a + 1];
  }

  /** Removing an entry keeps the registry's names unique. */
  lemma RemoveFirstKeepsUnique(cs: seq<Entry>, e: Entry)
    requires UniqueNames(cs)
    ensures UniqueNames(RemoveFirst(cs, e))
  {
    var i := IndexOf(cs, e);
    if i >= 0 {
      DeleteAtKeepsUnique(cs, i);
    }
  }

  lemma RemoveConnKeepsUnique(cs: seq<Entry>, c: ConnId)
    requires UniqueNames(cs)
    ensures UniqueNames(RemoveConn(cs, c))
  {
    var i := IndexOfConn(cs, c);
    if i >= 0 {
      DeleteAtKeepsUnique(cs, i);
    }
  }
}

=== FILE: server.dfy ===
/**
 The relay's per-connection logic. One `Step` handles one decoded inbound record of one
 connection: it returns the new shared state, the connection's new local state and the
 frames written, each addressed to a connection. `Disconnect` is the cleanup run when the
 connection's loop ends.
 */
module Server {
  import opened Wrappers
  import opened Strings
  import opened Protocol
  import opened Registry
  import opened Store

  /** The relay's shared state: the registry and the two append-only stores. */
  datatype State = State(connections: seq<Entry>, globalMessages: seq<Stored>, privateMessages: seq<Stored>)

  const Initial: State := State([], [], [])

  /** The state local to one connection's loop: its socket, remote address and the entry it
      registered last (`user_conn`), if any. */
  datatype Handler = Handler(conn: ConnId, addr: Addr, userConn: Option<Entry>)

  /** The effect of one step. */
  datatype Outcome = Outcome(state: State, handler: Handler, out: seq<Delivery>)

  /** A freshly accepted connection has no name yet. */
  function Accept(c: ConnId, addr: Addr): Handler
  {
    Handler(c, addr, None)
  }

  /** The connection's local entry belongs to it. */
  predicate WellFormed(h: Handler)
  {
    h.userConn.Some? ==> h.userConn.value.conn == h.conn && h.userConn.value.addr == h.addr
  }

  /** `view_global_history`: every global record, in insertion order, to one connection. */
  function History(ms: seq<Stored>, to: ConnId): (out: seq<Delivery>)
    ensures |out| == |ms|
    ensures forall i :: 0 <= i < |ms| ==> out[i] == Delivery(to, RecordFrame(ms[i], false))
  {
    if ms == [] then []
    else [Delivery(to, RecordFrame(ms[0], false))] + History(ms[1..], to)
  }

  /** `send_message_to_user`: the last record of the relevant store (for a private send, the
      last one from `fromName` to the recipient's name) to the recipient, or nothing. */
  function SendToUser(store: seq<Stored>, fromName: string, to: Entry, isPrivate: bool): (out: seq<Delivery>)
    ensures |out| <= 1
    ensures forall d :: d in out ==> d.to == to.conn
    ensures !isPrivate ==> (out == [] <==> store == [])
    ensures isPrivate ==> (out == [] <==> forall m :: m in store ==> !Between(m, fromName, to.name))
  {
    var last := if isPrivate then LatestFor(store, fromName, to.name)
                else if store == [] then None
                else Some(store[|store| - 1]);
    match last
    case None => []
    case Some(m) => [Delivery(to.conn, RecordFrame(m, isPrivate))]
  }

  /** `send_message_to_all`: the last global record to every entry of another connection,
      one registry entry at a time. */
  function SendToAll(cs: seq<Entry>, sender: Entry, store: seq<Stored>): (out: seq<Delivery>)
    ensures |out| <= |cs|
    ensures store == [] ==> out == []
    ensures forall d :: d in out ==> exists e :: e in cs && e.conn == d.to && e.conn != sender.conn
  {
    if cs == [] then []
    else (if cs[0].conn != sender.conn then SendToUser(store, sender.name, cs[0], false) else [])
         + SendToAll(cs[1..], sender, store)
  }

  /** The entries of connections other than `c`, in registry order. */
  function Recipients(cs: seq<Entry>, c: ConnId): (r: seq<Entry>)
    ensures |r| <= |cs|
    ensures forall e :: e in r <==> e in cs && e.conn != c
  {
    if cs == [] then []
    else (if cs[0].conn != c then [cs[0]] else []) + Recipients(cs[1..], c)
  }

  /** One frame to each of `rs`, in order. */
  function Fanout(rs: seq<Entry>, f: Frame): (out: seq<Delivery>)
    ensures |out| == |rs|
    ensures forall i :: 0 <= i < |rs| ==> out[i] == Delivery(rs[i].conn, f)
  {
    if rs == [] then [] else [Delivery(rs[0].conn, f)] + Fanout(rs[1..], f)
  }

  /** Broadcasting the last global record reaches exactly the entries of other connections,
      in registry order, each with that record's frame. */
  lemma {:induction false} SendToAllIsFanout(cs: seq<Entry>, sender: Entry, store: seq<Stored>)
    requires store != []
    ensures SendToAll(cs, sender, store)
         == Fanout(Recipients(cs, sender.conn), RecordFrame(store[|store| - 1], false))
  {
    if cs != [] {
      SendToAllIsFanout(cs[1..], sender, store);
      var f := RecordFrame(store[|store| - 1], false);
      var rest := Recipients(cs[1..], sender.conn);
      if cs[0].conn != sender.conn {
        assert Recipients(cs, sender.conn) == [cs[0]] + rest;
        assert Fanout([cs[0]] + rest, f) == [Delivery(cs[0].conn, f)] + Fanout(rest, f) by {
          assert ([cs[0]] + rest)[1..] == rest;
        }
      } else {
        assert Recipients(cs, sender.conn) == rest;
      }
    }
  }

  /** The record the relay stores for an inbound `msg` or `file` record from `sender`: a
      global text is addressed to "all"; otherwise the destination is the `control` value
      (a global file therefore keeps "4all"); a file without a filename gets the default. */
  function NewRecord(sender: string, rec: InRecord): (m: Stored)
    ensures m.sender == sender && m.content == rec.message
    ensures m.kind.Attachment? <==> rec.kind == "file"
    ensures rec.kind != "file" && rec.control == BroadcastMarker ==> m.destination == "all"
    ensures rec.kind == "file" || rec.control != BroadcastMarker ==> m.destination == rec.control
    ensures rec.kind == "file" && rec.filename.Some? ==> m.kind.filename == rec.filename.value
    ensures rec.kind == "file" && rec.filename.None? ==> m.kind.filename == DefaultFilename
  {
    if rec.kind == "file" then
      Stored(sender, rec.control, Attachment(rec.filename.GetOr(DefaultFilename)), rec.message)
    else
      Stored(sender, if rec.control == BroadcastMarker then "all" else rec.control, Text, rec.message)
  }

  /** A notice written back to the requesting connection. */
  function Reply(h: Handler, text: string): Delivery
  {
    Delivery(h.conn, MsgFrame(text))
  }

  /** A `name` record: a name already held by an entry is refused with two notices;
      otherwise a new entry is appended, the welcome is sent and global history replayed. */
  function RegisterName(st: State, h: Handler, name: string): (o: Outcome)
    ensures o.state.globalMessages == st.globalMessages && o.state.privateMessages == st.privateMessages
    ensures o.state == st <==> NameInUse(st.connections, name)
    ensures !NameInUse(st.connections, name) ==>
              o.handler.userConn == Some(Entry(h.conn, h.addr, name)) && Entry(h.conn, h.addr, name) in o.state.connections
    ensures forall d :: d in o.out ==> d.to == h.conn
  {
    if NameInUse(st.connections, name) then
      Outcome(st, h, [Reply(h, NameTakenNotice(name)), Reply(h, RetryNotice)])
    else
      var e := Entry(h.conn, h.addr, name);
      Outcome(st.(connections := st.connections + [e]), h.(userConn := Some(e)),
              [Reply(h, WelcomeNotice(name))] + History(st.globalMessages, h.conn))
  }

  /** An `online_usr` record from a named connection. */
  function ListUsers(st: State, u: Entry): Delivery
  {
    Delivery(u.conn, UsersFrame(OnlineUsers(st.connections, u.name)))
  }

  /** A `msg` or `file` record from the named entry `u`: a broadcast is appended to the global
      store and sent to everyone else; a private record to a registered name is appended to
      the private store and sent to that entry; otherwise the sender gets an error notice. */
  function Submit(st: State, h: Handler, u: Entry, rec: InRecord): (o: Outcome)
    ensures o.state.connections == st.connections && o.handler == h
    ensures o.state == st <==> rec.control != BroadcastMarker && !NameInUse(st.connections, rec.control)
    ensures o.state == st ==> |o.out| == 1 && o.out[0].to == h.conn
  {
    var m := NewRecord(u.name, rec);
    if rec.control == BroadcastMarker then
      var st' := st.(globalMessages := st.globalMessages + [m]);
      Outcome(st', h, SendToAll(st'.connections, u, st'.globalMessages))
    else
      match FindByName(st.connections, rec.control)
      case Some(dest) =>
        var st' := st.(privateMessages := st.privateMessages + [m]);
        Outcome(st', h, SendToUser(st'.privateMessages, u.name, dest, true))
      case None =>
        var notice := if rec.kind == "file" then FileNotDeliveredNotice(rec.control, m.kind.filename)
                      else UnknownUserNotice(rec.control);
        Outcome(st, h, [Reply(h, notice)])
  }

  /** One iteration of `handle_clients` for a decoded record. */
  function Step(st: State, h: Handler, rec: InRecord): (o: Outcome)
    ensures o.handler.conn == h.conn && o.handler.addr == h.addr
    ensures rec.kind != "name" ==> o.handler == h && o.state.connections == st.connections
    ensures st.globalMessages <= o.state.globalMessages && st.privateMessages <= o.state.privateMessages
    ensures h.userConn.None? && rec.kind != "name" ==> o.state == st
  {
    if rec.kind == "name" then RegisterName(st, h, rec.message)
    else if rec.kind == "online_usr" || rec.kind == "msg" || rec.kind == "file" then
      match h.userConn
      case None => Outcome(st, h, [Reply(h, NotNamedNotice)])
      case Some(u) =>
        if rec.kind == "online_usr" then Outcome(st, h, [ListUsers(st, u)])
        else Submit(st, h, u, rec)
    else Outcome(st, h, [])
  }

  /** The cleanup after the loop: the connection's last entry is removed with `list.remove`,
      or, for a connection that never registered, its first entry if there is one. */
  function Disconnect(st: State, h: Handler): (st': State)
    ensures st'.globalMessages == st.globalMessages && st'.privateMessages == st.privateMessages
    ensures forall x :: x in st'.connections ==> x in st.connections
    ensures h.userConn.Some? && h.userConn.value in st.connections ==> |st'.connections| == |st.connections| - 1
  {
    match h.userConn
    case Some(u) => st.(connections := RemoveFirst(st.connections, u))
    case None => st.(connections := RemoveConn(st.connections, h.conn))
  }

  predicate IsSubmission(rec: InRecord)
  {
    rec.kind == "msg" || rec.kind == "file"
  }

  // ---------------------------------------------------------------------------------------
  // Properties of one step

  /** A name already in the registry changes nothing and draws exactly the two notices. */
  lemma DuplicateNameRejected(st: State, h: Handler, rec: InRecord, k: nat)
    requires rec.kind == "name"
    requires k < |st.connections| && st.connections[k].name == rec.message
    ensures Step(st, h, rec).state == st
    ensures Step(st, h, rec).handler == h
    ensures Step(st, h, rec).out
         == [Delivery(h.conn, MsgFrame(NameTakenNotice(rec.message))), Delivery(h.conn, MsgFrame(RetryNotice))]
  {
  }

  /** A free name is appended as the connection's entry; the connection gets the welcome and
      then one frame per global record, in insertion order. */
  lemma FreshNameRegistered(st: State, h: Handler, rec: InRecord)
    requires rec.kind == "name"
    requires forall i :: 0 <= i < |st.connections| ==> st.connections[i].name != rec.message
    ensures var o := Step(st, h, rec);
            var e := Entry(h.conn, h.addr, rec.message);
            && o.state.connections == st.connections + [e]
            && o.state.globalMessages == st.globalMessages
            && o.state.privateMessages == st.privateMessages
            && o.handler.userConn == Some(e)
            && |o.out| == 1 + |st.globalMessages|
            && o.out[0] == Delivery(h.conn, MsgFrame(WelcomeNotice(rec.message)))
            && forall i :: 0 <= i < |st.globalMessages| ==>
                 o.out[i + 1] == Delivery(h.conn, RecordFrame(st.globalMessages[i], false))
  {
  }

  /** Without a registered name, a list request or a submission is answered with one notice
      and changes nothing. */
  lemma UnnamedRequestRejected(st: State, h: Handler, rec: InRecord)
    requires rec.kind == "online_usr" || IsSubmission(rec)
    requires h.userConn.None?
    ensures Step(st, h, rec) == Outcome(st, h, [Delivery(h.conn, MsgFrame(NotNamedNotice))])
  {
  }

  /** A broadcast appends exactly one global record and sends it to every entry of another
      connection, in registry order, and to nobody else. */
  lemma BroadcastFansOut(st: State, h: Handler, rec: InRecord)
    requires IsSubmission(rec) && rec.control == BroadcastMarker
    requires h.userConn.Some?
    ensures var o := Step(st, h, rec);
            var u := h.userConn.value;
            var m := NewRecord(u.name, rec);
            && o.state == st.(globalMessages := st.globalMessages + [m])
            && o.handler == h
            && o.out == Fanout(Recipients(st.connections, u.conn), RecordFrame(m, false))
            && (forall d :: d in o.out ==> exists e :: e in st.connections && e.conn == d.to && e.conn != u.conn)
  {
    var u := h.userConn.value;
    var m := NewRecord(u.name, rec);
    SendToAllIsFanout(st.connections, u, st.globalMessages + [m]);
    var o := Step(st, h, rec);
    var rs := Recipients(st.connections, u.conn);
    forall d | d in o.out
      ensures exists e :: e in st.connections && e.conn == d.to && e.conn != u.conn
    {
      var i :| 0 <= i < |o.out| && o.out[i] == d;
      assert rs[i] in rs;
    }
  }

  /** A private record to a name nobody holds is stored nowhere and draws exactly one error
      notice to the sender. */
  lemma UnknownDestinationDropped(st: State, h: Handler, rec: InRecord)
    requires IsSubmission(rec) && rec.control != BroadcastMarker
    requires h.userConn.Some?
    requires forall i :: 0 <= i < |st.connections| ==> st.connections[i].name != rec.control
    ensures var o := Step(st, h, rec);
            && o.state == st
            && o.handler == h
            && |o.out| == 1
            && o.out[0].to == h.conn
            && o.out[0].frame == MsgFrame(
                 if rec.kind == "file" then FileNotDeliveredNotice(rec.control, rec.filename.GetOr(DefaultFilename))
                 else UnknownUserNotice(rec.control))
  {
  }

  /** A private record to a registered name is appended to the private store and only the
      entry holding that name receives a frame, carrying the record just appended. */
  lemma PrivateDelivered(st: State, h: Handler, rec: InRecord, k: nat)
    requires IsSubmission(rec) && rec.control != BroadcastMarker
    requires h.userConn.Some?
    requires UniqueNames(st.connections)
    requires k < |st.connections| && st.connections[k].name == rec.control
    ensures var o := Step(st, h, rec);
            var m := NewRecord(h.userConn.value.name, rec);
            && o.state == st.(privateMessages := st.privateMessages + [m])
            && o.handler == h
            && o.out == [Delivery(st.connections[k].conn, RecordFrame(m, true))]
  {
    var u := h.userConn.value;
    var m := NewRecord(u.name, rec);
    FindByNameUnique(st.connections, rec.control, k);
    LatestAfterAppend(st.privateMessages, m);
  }

  /** The list request returns the entries whose name differs from the requester's, in
      registry order, each as its name and `ip:port`. */
  lemma OnlineListSnapshot(st: State, h: Handler, rec: InRecord)
    requires rec.kind == "online_usr"
    requires h.userConn.Some?
    ensures var o := Step(st, h, rec);
            var u := h.userConn.value;
            var others := Others(st.connections, u.name);
            && o.state == st && o.handler == h
            && |o.out| == 1 && o.out[0].to == u.conn
            && o.out[0].frame.UsersFrame?
            && |o.out[0].frame.users| == |others|
            && (forall i :: 0 <= i < |others| ==>
                  o.out[0].frame.users[i] == UserInfo(others[i].name, others[i].addr.ip + ":" + NatToString(others[i].addr.port)))
            && (forall e :: e in others <==> e in st.connections && e.name != u.name)
  {
  }

  /** The stores only grow, and by at most one record per step in total; the registry only
      grows, by at most one entry. */
  lemma StepOnlyAppends(st: State, h: Handler, rec: InRecord)
    ensures var o := Step(st, h, rec);
            && st.globalMessages <= o.state.globalMessages
            && st.privateMessages <= o.state.privateMessages
            && |o.state.globalMessages| + |o.state.privateMessages| <= |st.globalMessages| + |st.privateMessages| + 1
            && st.connections <= o.state.connections
            && |o.state.connections| <= |st.connections| + 1
  {
  }

  /** A step either leaves the registry and the handler as they were, or appends one entry
      of this connection and makes it the handler's entry. */
  lemma StepRegistryEffect(st: State, h: Handler, rec: InRecord)
    ensures var o := Step(st, h, rec);
            || (o.state.connections == st.connections && o.handler == h)
            || (&& o.handler.userConn.Some?
                && o.handler == h.(userConn := o.handler.userConn)
                && o.handler.userConn.value.conn == h.conn
                && o.handler.userConn.value.addr == h.addr
                && o.state.connections == st.connections + [o.handler.userConn.value])
  {
  }

  /** Every step keeps the registry's names unique. */
  lemma StepKeepsNamesUnique(st: State, h: Handler, rec: InRecord)
    requires UniqueNames(st.connections)
    ensures UniqueNames(Step(st, h, rec).state.connections)
  {
    if rec.kind == "name" && !NameInUse(st.connections, rec.message) {
      var cs := Step(st, h, rec).state.connections;
      assert cs == st.connections + [Entry(h.conn, h.addr, rec.message)];
      forall i, j | 0 <= i < j < |cs|
        ensures cs[i].name != cs[j].name
      {
        if j == |st.connections| {
          assert cs[i] == st.connections[i];
        }
      }
    }
  }

  /** Every step keeps the connection's own entry its own. */
  lemma StepKeepsWellFormed(st: State, h: Handler, rec: InRecord)
    requires WellFormed(h)
    ensures WellFormed(Step(st, h, rec).handler)
    ensures Step(st, h, rec).handler.conn == h.conn && Step(st, h, rec).handler.addr == h.addr
  {
  }

  /** Disconnecting a registered connection removes exactly the first copy of its current
      entry, keeps the order of the rest, and leaves every entry of other connections and
      both stores as they were. */
  lemma DisconnectRemovesOwnEntry(st: State, h: Handler)
    requires h.userConn.Some? && h.userConn.value in st.connections
    requires WellFormed(h)
    ensures var cs := Disconnect(st, h).connections;
            var u := h.userConn.value;
            && |cs| == |st.connections| - 1
            && multiset(cs) == multiset(st.connections) - multiset{u}
            && (exists i :: 0 <= i < |st.connections| && st.connections[i] == u && u !in st.connections[..i]
                            && cs == st.connections[..i] + st.connections[i + 1..])
            && (forall x: Entry :: x.conn != h.conn ==> (x in cs <==> x in st.connections))
            && Disconnect(st, h).globalMessages == st.globalMessages
            && Disconnect(st, h).privateMessages == st.privateMessages
  {
  }

  /** Disconnecting a connection that never registered leaves the registry unchanged when it
      holds no entry of that connection. */
  lemma DisconnectUnnamed(st: State, h: Handler)
    requires h.userConn.None?
    requires forall i :: 0 <= i < |st.connections| ==> st.connections[i].conn != h.conn
    ensures Disconnect(st, h) == st
  {
  }

  lemma DisconnectKeepsNamesUnique(st: State, h: Handler)
    requires UniqueNames(st.connections)
    ensures UniqueNames(Disconnect(st, h).connections)
  {
    match h.userConn
    case Some(u) => RemoveFirstKeepsUnique(st.connections, u);
    case None => RemoveConnKeepsUnique(st.connections, h.conn);
  }

  /** A connection that registers a second, free name keeps its first entry: the new entry
      is appended and becomes the connection's entry, so the disconnect that follows removes
      only the new one and the first name stays listed. */
  lemma SecondNameLeavesStaleEntry(st: State, h: Handler, rec: InRecord)
    requires rec.kind == "name" && h.userConn.Some? && h.userConn.value in st.connections
    requires WellFormed(h)
    requires forall i :: 0 <= i < |st.connections| ==> st.connections[i].name != rec.message
    ensures var o := Step(st, h, rec);
            && o.handler.userConn == Some(Entry(h.conn, h.addr, rec.message))
            && h.userConn.value in Disconnect(o.state, o.handler).connections
            && Entry(h.conn, h.addr, rec.message) !in Disconnect(o.state, o.handler).connections
  {
    var o := Step(st, h, rec);
    var e := Entry(h.conn, h.addr, rec.message);
    FreshNameRegistered(st, h, rec);
    assert h.userConn.value != e;
    assert e !in st.connections;
    assert o.state.connections == st.connections + [e];
    assert e in o.state.connections;
    var cs := Disconnect(o.state, o.handler).connections;
    assert cs == RemoveFirst(o.state.connections, e);
  }
}

=== FILE: store.dfy ===
/**
 The relay's message store: the records kept in `global_messages` and
 `private_messages`, the filter the relay runs over them to find the latest record
 between two names, and the frame that forwards a stored record.
 */
module Store {
  import opened Wrappers
  import opened Protocol

  /** A stored record carries text or a file (with its filename). */
  datatype Kind = Text | Attachment(filename: string)

  /** One stored record: sender, destination, kind and content (text or base64 data). */
  datatype Stored = Stored(sender: string, destination: string, kind: Kind, content: string)

  predicate Between(m: Stored, sender: string, destination: string)
  {
    m.sender == sender && m.destination == destination
  }

  /** The records from `sender` to `destination`, in insertion order. */
  function Matching(ms: seq<Stored>, sender: string, destination: string): (r: seq<Stored>)
    ensures |r| <= |ms|
    ensures forall m :: m in r <==> m in ms && Between(m, sender, destination)
  {
    if ms == [] then []
    else
      var last := ms[|ms| - 1];
      assert ms == ms[..|ms| - 1] + [last];
      Matching(ms[..|ms| - 1], sender, destination) + (if Between(last, sender, destination) then [last] else [])
  }

  /** The most recent record from `sender` to `destination` (`messages_for_client[-1]`). */
  function LatestFor(ms: seq<Stored>, sender: string, destination: string): (r: Option<Stored>)
    ensures r.None? <==> forall m :: m in ms ==> !Between(m, sender, destination)
    ensures r.Some? ==> r.value in ms && Between(r.value, sender, destination)
  {
    var f := Matching(ms, sender, destination);
    if f == [] then None
    else
      assert f[|f| - 1] in f;
      Some(f[|f| - 1])
  }

  /** Right after appending a record, it is the latest one between its sender and destination,
      whatever was stored before. */
  lemma LatestAfterAppend(ms: seq<Stored>, m: Stored)
    ensures LatestFor(ms + [m], m.sender, m.destination) == Some(m)
  {
    assert (ms + [m])[..|ms + [m]| - 1] == ms;
  }

  /** Appending a record between other names does not change the latest record between
      `sender` and `destination`. */
  lemma LatestSkipsOthers(ms: seq<Stored>, m: Stored, sender: string, destination: string)
    requires !Between(m, sender, destination)
    ensures LatestFor(ms + [m], sender, destination) == LatestFor(ms, sender, destination)
  {
    assert (ms + [m])[..|ms + [m]| - 1] == ms;
  }

  /** The latest record is the one at the last matching position: no later record matches. */
  lemma {:induction false} LatestIsLast(ms: seq<Stored>, sender: string, destination: string)
    requires LatestFor(ms, sender, destination).Some?
    ensures exists i :: 0 <= i < |ms| && ms[i] == LatestFor(ms, sender, destination).value
                        && forall j :: i < j < |ms| ==> !Between(ms[j], sender, destination)
    decreases |ms|
  {
    var init := ms[..|ms| - 1];
    var last := ms[|ms| - 1];
    assert ms == init + [last];
    if Between(last, sender, destination) {
      LatestAfterAppend(init, last);
      assert ms[|ms| - 1] == LatestFor(ms, sender, destination).value;
    } else {
      LatestSkipsOthers(init, last, sender, destination);
      LatestIsLast(init, sender, destination);
      var i :| 0 <= i < |init| && init[i] == LatestFor(init, sender, destination).value
                && forall j :: i < j < |init| ==> !Between(init[j], sender, destination);
      assert ms[i] == init[i];
      forall j | i < j < |ms|
        ensures !Between(ms[j], sender, destination)
      {
        if j < |init| { assert ms[j] == init[j]; }
      }
    }
  }

  /** The frame that forwards a stored record: a text line `[sender -> X]: content`, where
      `X` is the destination for a private record and `todos` for a global one, or a file
      frame with the stored filename. */
  function RecordFrame(m: Stored, isPrivate: bool): Frame
  {
    match m.kind
    case Text =>
      var shown := if isPrivate then m.destination else EveryoneLabel;
      MsgFrame(ChatLine(m.sender, shown, m.content))
    case Attachment(name) => FileFrame(m.sender, name, m.content)
  }
}

=== FILE: strings.dfy ===
/**
 The handful of Python `str` operations the relay and its clients rely on, with their
 Python meaning: `find`, `in`, slicing (negative and out-of-range bounds included),
 `strip()`, `split(sep, maxsplit)` and `str(n)` for a natural number.
 Strings are sequences of code points, as Python's `str` is.
 */
module Strings {

  /** `sub` occurs in `s` starting at index `i`. */
  predicate At(s: string, sub: string, i: nat)
  {
    i + |sub| <= |s| && s[i..i + |sub|] == sub
  }

  /** Python's `s.find(sub, start)` for a non-negative `start`: the least index at or after
      `start` where `sub` occurs, or -1 when there is none. */
  function FindFrom(s: string, sub: string, start: nat): (r: int)
    ensures r == -1 || (start <= r && At(s, sub, r))
    ensures r >= 0 ==> forall j: nat :: start <= j < r ==> !At(s, sub, j)
    ensures r == -1 ==> forall j: nat :: start <= j ==> !At(s, sub, j)
    decreases |s| - start
  {
    if start + |sub| > |s| then -1
    else if s[start..start + |sub|] == sub then start
    else FindFrom(s, sub, start + 1)
  }

  /** Python's `s.find(sub)`. */
  function Find(s: string, sub: string): int
  {
    FindFrom(s, sub, 0)
  }

  /** Python's `sub in s`. */
  predicate Contains(s: string, sub: string)
  {
    Find(s, sub) >= 0
  }

  /** An occurrence at `k`, with none between `start` and `k`, is what `find` reports. */
  lemma FindFromIs(s: string, sub: string, start: nat, k: nat)
    requires start <= k && At(s, sub, k)
    requires forall j: nat :: start <= j < k ==> !At(s, sub, j)
    ensures FindFrom(s, sub, start) == k
  {
  }

  /** An occurrence anywhere makes `in` true. */
  lemma ContainsAt(s: string, sub: string, k: nat)
    requires At(s, sub, k)
    ensures Contains(s, sub)
  {
  }

  /** If the first character of `sub` never appears in `s`, `sub` does not occur in `s`. */
  lemma NotContainsFirstChar(s: string, sub: string)
    requires |sub| > 0 && sub[0] !in s
    ensures !Contains(s, sub)
  {
    forall j: nat | j < |s|
      ensures !At(s, sub, j)
    {
      assert s[j] in s;
    }
  }

  /** If some character of `sub` never appears in `s`, `sub` does not occur in `s`. */
  lemma NotContainsChar(s: string, sub: string, i: nat)
    requires i < |sub| && sub[i] !in s
    ensures !Contains(s, sub)
  {
    forall j: nat | j + |sub| <= |s|
      ensures !At(s, sub, j)
    {
      assert s[j + i] in s;
    }
  }

  /** An occurrence of a blank-free `sub` in `x + " " + y` lies in `x` or in `y`. */
  lemma NotContainsAcrossBlank(x: string, y: string, sub: string)
    requires ' ' !in sub
    requires !Contains(x, sub) && !Contains(y, sub)
    ensures !Contains(x + " " + y, sub)
  {
    var v := x + " " + y;
    forall j: nat | j + |sub| <= |v|
      ensures !At(v, sub, j)
    {
      if j + |sub| <= |x| {
        assert v[j..j + |sub|] == x[j..j + |sub|];
        assert FindFrom(x, sub, 0) == -1;
        assert !At(x, sub, j);
      } else if j > |x| {
        assert v[j..j + |sub|] == y[j - |x| - 1..j - |x| - 1 + |sub|];
        assert FindFrom(y, sub, 0) == -1;
        assert !At(y, sub, j - |x| - 1);
      } else {
        assert v[|x|] == ' ';
        assert v[j..j + |sub|][|x| - j] == ' ';
      }
    }
  }

  /** A string that does not start any occurrence of `sub` inside a prefix `a` (because it
      lacks the first character of `sub`) and does not contain `sub` itself, does not
      contain it in `a + b` either. */
  lemma NotContainsConcat(a: string, b: string, sub: string)
    requires |sub| > 0 && sub[0] !in a
    requires !Contains(b, sub)
    ensures !Contains(a + b, sub)
  {
    forall j: nat
      ensures !At(a + b, sub, j)
    {
      if j < |a| {
        assert (a + b)[j] == a[j];
      } else if j + |sub| <= |a + b| {
        assert (a + b)[j..j + |sub|] == b[j - |a|..j - |a| + |sub|];
        assert FindFrom(b, sub, 0) == -1;
        assert !At(b, sub, j - |a|);
      }
    }
  }

  /** Appending a character that is not the last character of `sub` cannot create an
      occurrence of `sub`. */
  lemma NotContainsSnoc(s: string, c: char, sub: string)
    requires |sub| > 0 && sub[|sub| - 1] != c
    requires !Contains(s, sub)
    ensures !Contains(s + [c], sub)
  {
    forall j: nat
      ensures !At(s + [c], sub, j)
    {
      if j + |sub| == |s| + 1 {
        assert (s + [c])[j + |sub| - 1] == c;
      } else if j + |sub| <= |s| {
        assert (s + [c])[j..j + |sub|] == s[j..j + |sub|];
        assert FindFrom(s, sub, 0) == -1;
        assert !At(s, sub, j);
      }
    }
  }

  /** Python's normalisation of one slice bound against a length `n`. */
  function SliceBound(i: int, n: nat): (k: nat)
    ensures k <= n
    ensures 0 <= i <= n ==> k == i
    ensures i > n ==> k == n
    ensures i < 0 && i + n >= 0 ==> k == i + n
    ensures i + n < 0 ==> k == 0
  {
    if i < 0 then (if i + n < 0 then 0 else i + n)
    else if i > n then n
    else i
  }

  /** Python's `s[i:j]`: bounds are normalised, an empty or inverted range gives "". */
  function Slice(s: string, i: int, j: int): (r: string)
    ensures 0 <= i <= j <= |s| ==> r == s[i..j]
    ensures 0 <= j <= i ==> r == []
    ensures var a, b := SliceBound(i, |s|), SliceBound(j, |s|);
            r == if a < b then s[a..b] else []
  {
    var a := SliceBound(i, |s|);
    var b := SliceBound(j, |s|);
    if a < b then s[a..b] else []
  }

  /** Python's `str.isspace` for one character. */
  predicate IsSpace(c: char)
  {
    || ('\t' <= c <= '\r')
    || ('\U{1C}' <= c <= ' ')
    || c == '\U{85}' || c == '\U{A0}' || c == '\U{1680}'
    || ('\U{2000}' <= c <= '\U{200A}')
    || c == '\U{2028}' || c == '\U{2029}' || c == '\U{202F}' || c == '\U{205F}' || c == '\U{3000}'
  }

  predicate AllSpace(s: string)
  {
    forall i :: 0 <= i < |s| ==> IsSpace(s[i])
  }

  /** Neither end of `s` is whitespace. */
  predicate Stripped(s: string)
  {
    s == [] || (!IsSpace(s[0]) && !IsSpace(s[|s| - 1]))
  }

  /** How many whitespace characters open `s`. */
  function LeadingSpace(s: string): (k: nat)
    ensures k <= |s|
    ensures forall i :: 0 <= i < k ==> IsSpace(s[i])
    ensures k < |s| ==> !IsSpace(s[k])
  {
    if |s| > 0 && IsSpace(s[0]) then
      var k' := LeadingSpace(s[1..]);
      assert forall i :: 1 <= i < k' + 1 ==> s[i] == s[1..][i - 1];
      k' + 1
    else 0
  }

  /** Where the whitespace that closes `s` begins. */
  function TrailingSpace(s: string): (k: nat)
    ensures k <= |s|
    ensures forall i :: k <= i < |s| ==> IsSpace(s[i])
    ensures k > 0 ==> !IsSpace(s[k - 1])
  {
    if |s| > 0 && IsSpace(s[|s| - 1]) then
      var k := TrailingSpace(s[..|s| - 1]);
      assert forall i :: k <= i < |s| - 1 ==> s[i] == s[..|s| - 1][i];
      k
    else |s|
  }

  /** Python's `s.lstrip()`. */
  function TrimLeft(s: string): (r: string)
    ensures |r| <= |s| && r == s[|s| - |r|..]
    ensures AllSpace(s[..|s| - |r|])
    ensures r == [] || !IsSpace(r[0])
  {
    s[LeadingSpace(s)..]
  }

  /** Python's `s.rstrip()`. */
  function TrimRight(s: string): (r: string)
    ensures |r| <= |s| && r == s[..|r|]
    ensures AllSpace(s[|r|..])
    ensures r == [] || !IsSpace(r[|r| - 1])
  {
    s[..TrailingSpace(s)]
  }

  /** Python's `s.strip()`. */
  function Strip(s: string): (r: string)
    ensures Stripped(r)
    ensures r == [] <==> AllSpace(s)
    ensures exists a, b :: 0 <= a <= b <= |s| && r == s[a..b] && AllSpace(s[..a]) && AllSpace(s[b..])
  {
    var l := TrimLeft(s);
    var r := TrimRight(l);
    var a := |s| - |l|;
    assert s[a..a + |r|] == r;
    assert s[a + |r|..] == l[|r|..];
    r
  }

  /** `strip()` is determined by its contract: a piece of `s` with no surrounding whitespace,
      and only whitespace around it in `s`, is what `strip()` returns. */
  lemma StripUnique(s: string, a: nat, b: nat)
    requires a <= b <= |s| && AllSpace(s[..a]) && AllSpace(s[b..]) && Stripped(s[a..b])
    ensures Strip(s) == s[a..b]
  {
    var r := Strip(s);
    var a0: nat, b0: nat :| a0 <= b0 <= |s| && r == s[a0..b0] && AllSpace(s[..a0]) && AllSpace(s[b0..]);
    if a == b {
      AllSpaceAround(s, a);
    } else {
      StrippedEnds(s, a, b);
      assert !AllSpace(s) by { assert !IsSpace(s[a]); }
      StrippedEnds(s, a0, b0);
      SameStart(s, a, a0);
      SameEnd(s, b, b0);
    }
  }

  /** A non-empty piece with no surrounding whitespace starts and ends with a non-space. */
  lemma StrippedEnds(s: string, a: nat, b: nat)
    requires a < b <= |s| && Stripped(s[a..b])
    ensures !IsSpace(s[a]) && !IsSpace(s[b - 1])
  {
    assert s[a..b][0] == s[a] && s[a..b][b - a - 1] == s[b - 1];
  }

  /** Where the piece kept by `strip()` sits in `s`. */
  lemma StripBounds(s: string) returns (a: nat, b: nat)
    ensures a <= b <= |s| && Strip(s) == s[a..b]
  {
    a, b :| a <= b <= |s| && Strip(s) == s[a..b] && AllSpace(s[..a]) && AllSpace(s[b..]);
  }

  /** Whitespace before and after one cut point makes the whole string whitespace. */
  lemma AllSpaceAround(s: string, k: nat)
    requires k <= |s| && AllSpace(s[..k]) && AllSpace(s[k..])
    ensures AllSpace(s)
  {
    forall i | 0 <= i < |s|
      ensures IsSpace(s[i])
    {
      if i < k { assert s[..k][i] == s[i]; } else { assert s[k..][i - k] == s[i]; }
    }
  }

  /** Two positions that both end a whitespace-only prefix with a non-space are equal. */
  lemma SameStart(s: string, a: nat, a0: nat)
    requires a < |s| && a0 < |s| && !IsSpace(s[a]) && !IsSpace(s[a0])
    requires AllSpace(s[..a]) && AllSpace(s[..a0])
    ensures a == a0
  {
  }

  /** Two positions that both start a whitespace-only suffix after a non-space are equal. */
  lemma SameEnd(s: string, b: nat, b0: nat)
    requires 0 < b <= |s| && 0 < b0 <= |s| && !IsSpace(s[b - 1]) && !IsSpace(s[b0 - 1])
    requires AllSpace(s[b..]) && AllSpace(s[b0..])
    ensures b == b0
  {
  }

  /** Stripping a string that has no surrounding whitespace changes nothing. */
  lemma StripStripped(s: string)
    requires Stripped(s)
    ensures Strip(s) == s
  {
    StripUnique(s, 0, |s|);
  }

  /** A leading blank makes no difference to `strip()`. */
  lemma StripAfterBlank(s: string)
    ensures Strip(" " + s) == Strip(s)
  {
    var t := " " + s;
    assert IsSpace(' ') && t[1..] == s;
    assert LeadingSpace(t) == LeadingSpace(s) + 1;
    assert TrimLeft(t) == TrimLeft(s);
  }

  /** `parts` joined with `sep` between consecutive parts (Python's `sep.join(parts)`). */
  function Join(parts: seq<string>, sep: string): string
    requires |parts| > 0
  {
    if |parts| == 1 then parts[0] else parts[0] + sep + Join(parts[1..], sep)
  }

  /** Python's `s.split(sep, n)` for a non-empty separator: at most `n` cuts, each at the
      first remaining occurrence, the rest left whole in the last part. */
  function SplitN(s: string, sep: string, n: nat): (parts: seq<string>)
    requires |sep| > 0
    ensures 1 <= |parts| <= n + 1
    ensures Join(parts, sep) == s
    ensures NoneContain(parts[..|parts| - 1], sep)
    ensures |parts| <= n ==> !Contains(parts[|parts| - 1], sep)
    ensures FirstCuts(parts, sep)
    decreases n
  {
    var i := Find(s, sep);
    if n == 0 || i < 0 then [s]
    else
      FirstCut(s, sep);
      var rest := SplitN(s[i + |sep|..], sep, n - 1);
      SplitCons(s[..i], sep, s[i + |sep|..], rest, n);
      [s[..i]] + rest
  }

  /** Cutting at the first occurrence: the text before it holds no `sep`. */
  lemma FirstCut(s: string, sep: string)
    requires |sep| > 0 && Find(s, sep) >= 0
    ensures var i := Find(s, sep);
            && i + |sep| <= |s|
            && s == s[..i] + sep + s[i + |sep|..]
            && !Contains(s[..i], sep)
  {
    var i := Find(s, sep);
    PrefixBeforeFirst(s, sep, i);
  }

  /** With an occurrence of `sep` and at least one cut allowed, the first part ends at the
      first occurrence and the rest is the split of what follows it. */
  lemma SplitNUnfold(s: string, sep: string, n: nat)
    requires |sep| > 0 && n >= 1 && Find(s, sep) >= 0
    ensures Find(s, sep) + |sep| <= |s|
    ensures SplitN(s, sep, n) == [s[..Find(s, sep)]] + SplitN(s[Find(s, sep) + |sep|..], sep, n - 1)
  {
    FirstCut(s, sep);
  }

  /** No string of `parts` contains `sep`. */
  predicate NoneContain(parts: seq<string>, sep: string)
  {
    parts == [] || (!Contains(parts[0], sep) && NoneContain(parts[1..], sep))
  }

  /** Every cut of `parts` sits at the first occurrence of `sep` in the text that remains:
      the joined text's first occurrence ends the first part, and so on for the rest. */
  predicate FirstCuts(parts: seq<string>, sep: string)
    requires |parts| > 0
  {
    |parts| == 1 || (Find(Join(parts, sep), sep) == |parts[0]| && FirstCuts(parts[1..], sep))
  }

  /** One cut in front of a valid split of `tail` gives a valid split of `head + sep + tail`. */
  lemma SplitCons(head: string, sep: string, tail: string, rest: seq<string>, n: nat)
    requires n >= 1 && 1 <= |rest| <= n && Join(rest, sep) == tail && !Contains(head, sep)
    requires NoneContain(rest[..|rest| - 1], sep)
    requires |rest| <= n - 1 ==> !Contains(rest[|rest| - 1], sep)
    requires FirstCuts(rest, sep) && Find(head + sep + tail, sep) == |head|
    ensures var parts := [head] + rest;
            && 1 <= |parts| <= n + 1
            && Join(parts, sep) == head + sep + tail
            && NoneContain(parts[..|parts| - 1], sep)
            && (|parts| <= n ==> !Contains(parts[|parts| - 1], sep))
            && FirstCuts(parts, sep)
  {
    var parts := [head] + rest;
    JoinCons(head, rest, sep);
    assert parts[..|parts| - 1] == [head] + rest[..|rest| - 1];
    NoneContainCons(head, rest[..|rest| - 1], sep);
    assert parts[|parts| - 1] == rest[|rest| - 1];
  }

  /** Joining `head` in front of `rest` puts one separator between them; when that separator
      is the first occurrence in the joined text, the cuts stay first cuts. */
  lemma JoinCons(head: string, rest: seq<string>, sep: string)
    requires |rest| > 0 && FirstCuts(rest, sep)
    requires Find(head + sep + Join(rest, sep), sep) == |head|
    ensures Join([head] + rest, sep) == head + sep + Join(rest, sep)
    ensures FirstCuts([head] + rest, sep)
  {
    assert ([head] + rest)[0] == head && ([head] + rest)[1..] == rest;
  }

  lemma NoneContainCons(head: string, parts: seq<string>, sep: string)
    requires !Contains(head, sep) && NoneContain(parts, sep)
    ensures NoneContain([head] + parts, sep)
  {
    assert ([head] + parts)[0] == head && ([head] + parts)[1..] == parts;
  }

  /** The text before the first occurrence of `sep` does not contain `sep`. */
  lemma PrefixBeforeFirst(s: string, sep: string, i: nat)
    requires |sep| > 0 && i <= |s|
    requires forall j: nat :: j < i ==> !At(s, sep, j)
    ensures !Contains(s[..i], sep)
  {
    if Contains(s[..i], sep) {
      var k := Find(s[..i], sep) as nat;
      assert s[..i][k..k + |sep|] == s[k..k + |sep|];
      assert At(s, sep, k);
      assert false;
    }
  }

  predicate IsDigit(c: char)
  {
    '0' <= c <= '9'
  }

  function DigitChar(d: nat): (c: char)
    requires d < 10
    ensures IsDigit(c)
  {
    (('0' as int) + d) as char
  }

  /** Python's `str(n)` for a natural number: its decimal digits, most significant first,
      without leading zeros. */
  function NatToString(n: nat): (s: string)
    ensures |s| >= 1
    ensures forall i :: 0 <= i < |s| ==> IsDigit(s[i])
    ensures |s| > 1 ==> s[0] != '0'
  {
    if n < 10 then [DigitChar(n)] else NatToString(n / 10) + [DigitChar(n % 10)]
  }

  function DigitOf(c: char): (d: nat)
    requires IsDigit(c)
    ensures d < 10
  {
    c as int - '0' as int
  }

  /** The number a string of decimal digits denotes (the reading direction of `int(s)`). */
  function DigitsValue(s: string): nat
    requires forall i :: 0 <= i < |s| ==> IsDigit(s[i])
  {
    if s == [] then 0
    else DigitsValue(s[..|s| - 1]) * 10 + DigitOf(s[|s| - 1])
  }

  /** Reading back the decimal digits of `n` gives `n`. */
  lemma {:induction false} NatToStringRoundTrip(n: nat)
    ensures DigitsValue(NatToString(n)) == n
  {
    var s := NatToString(n);
    if n >= 10 {
      NatToStringRoundTrip(n / 10);
      assert s[..|s| - 1] == NatToString(n / 10);
    }
  }

  /** Distinct numbers have distinct decimal renderings. */
  lemma NatToStringInjective(a: nat, b: nat)
    requires NatToString(a) == NatToString(b)
    ensures a == b
  {
    NatToStringRoundTrip(a);
    NatToStringRoundTrip(b);
  }

  /** When the first character of `sep` is absent from `a`, the first occurrence of `sep` in
      `a + sep + b` is the one right after `a`. */
  lemma FindAfter(a: string, sep: string, b: string)
    requires |sep| > 0 && sep[0] !in a
    ensures Find(a + sep + b, sep) == |a|
  {
    var s := a + sep + b;
    assert s[|a|..|a| + |sep|] == sep;
    forall j: nat | j < |a|
      ensures !At(s, sep, j)
    {
      assert s[j] == a[j];
    }
    FindFromIs(s, sep, 0, |a|);
  }

  /** Splitting `a + sep + b` (at least one cut allowed) cuts right after `a` when `a` lacks
      the first character of `sep`. */
  lemma SplitNAfter(a: string, sep: string, b: string, n: nat)
    requires |sep| > 0 && sep[0] !in a && n >= 1
    ensures SplitN(a + sep + b, sep, n) == [a] + SplitN(b, sep, n - 1)
  {
    var s := a + sep + b;
    FindAfter(a, sep, b);
    assert s[..|a|] == a;
    assert s[|a| + |sep|..] == b;
  }

  /** `s` contains `sub` in its middle. */
  lemma ContainsMiddle(a: string, sub: string, c: string)
    ensures Contains(a + sub + c, sub)
  {
    assert (a + sub + c)[|a|..|a| + |sub|] == sub;
    ContainsAt(a + sub + c, sub, |a|);
  }

  /** `sub` occurs at `k`, and between `start` and `k` no position carries the character
      `sub[i0]` at offset `i0`: then `k` is what `find` reports from `start`. */
  lemma FindByWitness(v: string, sub: string, start: nat, k: nat, i0: nat)
    requires start <= k && At(v, sub, k) && i0 < |sub|
    requires forall j :: start + i0 <= j < k + i0 && j < |v| ==> v[j] != sub[i0]
    ensures FindFrom(v, sub, start) == k
  {
    forall j: nat | start <= j < k
      ensures !At(v, sub, j)
    {
      if j + |sub| <= |v| {
        assert v[j..j + |sub|][i0] == v[j + i0];
      }
    }
    FindFromIs(v, sub, start, k);
  }

  /** Searching from any point up to the first occurrence finds that same occurrence. */
  lemma FindFromLater(v: string, sub: string, a: nat, b: nat)
    requires a <= b && b <= FindFrom(v, sub, a)
    ensures FindFrom(v, sub, b) == FindFrom(v, sub, a)
  {
    FindFromIs(v, sub, b, FindFrom(v, sub, a) as nat);
  }

  /** An occurrence inside `b` is an occurrence inside `a + b + c`. */
  lemma ContainsInfix(a: string, b: string, c: string, sub: string)
    requires Contains(b, sub)
    ensures Contains(a + b + c, sub)
  {
    var k := Find(b, sub) as nat;
    assert (a + b + c)[|a| + k..|a| + k + |sub|] == b[k..k + |sub|];
    ContainsAt(a + b + c, sub, |a| + k);
  }

  /** Index of the last occurrence of `c` in `s`, or -1 (Python's `s.rfind(c)`). */
  function LastIndexOf(s: string, c: char): (i: int)
    ensures -1 <= i < |s|
    ensures i >= 0 ==> s[i] == c && c !in s[i + 1..]
    ensures i == -1 <==> c !in s
  {
    if s == [] then -1
    else if s[|s| - 1] == c then |s| - 1
    else
      var k := LastIndexOf(s[..|s| - 1], c);
      assert s == s[..|s| - 1] + [s[|s| - 1]];
      if k >= 0 then assert s[k + 1..] == s[..|s| - 1][k + 1..] + [s[|s| - 1]]; k
      else -1
  }
}

=== FILE: system.dfy ===
/**
 The relay as a whole: the shared state plus one handler per open connection. Each
 event is a new connection, one decoded record read by an open connection, or the end
 of an open connection's loop (closed socket, undecodable frame or transport error).
 Events are applied one at a time; races between connection threads are not modelled.
 */
module System {
  import opened Wrappers
  import opened Protocol
  import opened Registry
  import opened Store
  import opened Server

  /** The shared state, the open connections' handlers and the next fresh connection id. */
  datatype Relay = Relay(state: State, handlers: map<ConnId, Handler>, next: ConnId)

  datatype Event =
    | Connect(addr: Addr)
    | Receive(c: ConnId, rec: InRecord)
    | Drop(c: ConnId)

  const Boot: Relay := Relay(Initial, map[], 0)

  /** One event and the frames it writes. Events for a connection that is not open do nothing. */
  function Apply(s: Relay, ev: Event): (r: (Relay, seq<Delivery>))
    ensures !ev.Receive? ==> r.1 == []
    ensures ev.Connect? ==> r.0.state == s.state && r.0.next == s.next + 1
                            && s.next in r.0.handlers && r.0.handlers[s.next].userConn.None?
    ensures ev.Drop? ==> ev.c !in r.0.handlers
    ensures !ev.Connect? && ev.c !in s.handlers ==> r == (s, [])
  {
    match ev
    case Connect(a) =>
      (s.(handlers := s.handlers[s.next := Accept(s.next, a)], next := s.next + 1), [])
    case Receive(c, rec) =>
      if c !in s.handlers then (s, [])
      else
        var o := Step(s.state, s.handlers[c], rec);
        (s.(state := o.state, handlers := s.handlers[c := o.handler]), o.out)
    case Drop(c) =>
      if c !in s.handlers then (s, [])
      else (s.(state := Disconnect(s.state, s.handlers[c]), handlers := s.handlers - {c}), [])
  }

  /** A sequence of events from `s`, with every frame written, in order. */
  function Run(s: Relay, evs: seq<Event>): (Relay, seq<Delivery>)
    decreases |evs|
  {
    if evs == [] then (s, [])
    else
      var (s1, out1) := Apply(s, evs[0]);
      var (s2, out2) := Run(s1, evs[1..]);
      (s2, out1 + out2)
  }

  /** Every entry and every open connection has an id already handed out. */
  predicate IdsIssued(s: Relay)
  {
    && (forall i :: 0 <= i < |s.state.connections| ==> s.state.connections[i].conn < s.next)
    && (forall c :: c in s.handlers ==> c < s.next && s.handlers[c].conn == c)
  }

  /** An open connection's handler: its entry (if it registered) is in the registry; if it
      did not register, the registry holds no entry of it. */
  predicate HandlerOk(s: Relay, c: ConnId)
    requires c in s.handlers
  {
    var h := s.handlers[c];
    && WellFormed(h)
    && (h.userConn.Some? ==> h.userConn.value in s.state.connections)
    && (h.userConn.None? ==> forall i :: 0 <= i < |s.state.connections| ==> s.state.connections[i].conn != c)
  }

  predicate Inv(s: Relay)
  {
    && UniqueNames(s.state.connections)
    && IdsIssued(s)
    && (forall c :: c in s.handlers ==> HandlerOk(s, c))
  }

  lemma BootInv()
    ensures Inv(Boot)
  {
  }

  /** Every event keeps the invariant. */
  lemma ApplyKeepsInv(s: Relay, ev: Event)
    requires Inv(s)
    ensures Inv(Apply(s, ev).0)
  {
    match ev
    case Connect(a) => ConnectKeepsInv(s, a);
    case Receive(c, rec) => ReceiveKeepsInv(s, c, rec);
    case Drop(c) => DropKeepsInv(s, c);
  }

  lemma ConnectKeepsInv(s: Relay, a: Addr)
    requires Inv(s)
    ensures Inv(Apply(s, Connect(a)).0)
  {
    var s' := Apply(s, Connect(a)).0;
    forall c | c in s'.handlers
      ensures HandlerOk(s', c)
    {
      if c != s.next {
        assert s'.handlers[c] == s.handlers[c];
        assert HandlerOk(s, c);
      }
    }
  }

  lemma ReceiveKeepsInv(s: Relay, c: ConnId, rec: InRecord)
    requires Inv(s)
    ensures Inv(Apply(s, Receive(c, rec)).0)
  {
    if c in s.handlers {
      var h := s.handlers[c];
      var o := Step(s.state, h, rec);
      var s' := Relay(o.state, s.handlers[c := o.handler], s.next);
      assert Apply(s, Receive(c, rec)).0 == s';
      StepKeepsNamesUnique(s.state, h, rec);
      StepKeepsWellFormed(s.state, h, rec);
      StepRegistryEffect(s.state, h, rec);
      OwnStepKeepsInv(s, s', c);
    }
  }

  /** A step of connection `c` that either changes nothing in the registry and its handler,
      or appends the handler's new entry, keeps the invariant. */
  lemma OwnStepKeepsInv(s: Relay, s': Relay, c: ConnId)
    requires Inv(s) && c in s.handlers && c in s'.handlers
    requires s'.handlers == s.handlers[c := s'.handlers[c]] && s'.next == s.next
    requires UniqueNames(s'.state.connections)
    requires WellFormed(s'.handlers[c]) && s'.handlers[c].conn == c
    requires var cs, cs', h' := s.state.connections, s'.state.connections, s'.handlers[c];
             || (cs' == cs && h' == s.handlers[c])
             || (h'.userConn.Some? && h'.userConn.value.conn == c && cs' == cs + [h'.userConn.value])
    ensures Inv(s')
  {
    var cs, cs' := s.state.connections, s'.state.connections;
    assert HandlerOk(s, c);
    assert forall i :: 0 <= i < |cs| ==> cs'[i] == cs[i];
    assert forall i :: |cs| <= i < |cs'| ==> cs'[i].conn == c;
    OtherHandlersOk(s, s', c);
  }

  /** A step of connection `c` that only appends entries of `c` to the registry keeps every
      other open connection's handler in order. */
  lemma OtherHandlersOk(s: Relay, s': Relay, c: ConnId)
    requires forall d :: d in s.handlers ==> HandlerOk(s, d)
    requires c in s.handlers && c in s'.handlers && s'.handlers == s.handlers[c := s'.handlers[c]]
    requires |s.state.connections| <= |s'.state.connections|
    requires forall i :: 0 <= i < |s.state.connections| ==> s'.state.connections[i] == s.state.connections[i]
    requires forall i :: |s.state.connections| <= i < |s'.state.connections| ==> s'.state.connections[i].conn == c
    ensures forall d :: d in s'.handlers && d != c ==> HandlerOk(s', d)
  {
    var cs, cs' := s.state.connections, s'.state.connections;
    assert forall x :: x in cs ==> x in cs';
    forall d | d in s'.handlers && d != c
      ensures HandlerOk(s', d)
    {
      assert HandlerOk(s, d);
      assert s'.handlers[d] == s.handlers[d];
    }
  }

  lemma DropKeepsInv(s: Relay, c: ConnId)
    requires Inv(s)
    ensures Inv(Apply(s, Drop(c)).0)
  {
    if c in s.handlers {
      var h := s.handlers[c];
      var s' := Relay(Disconnect(s.state, h), s.handlers - {c}, s.next);
      assert Apply(s, Drop(c)).0 == s';
      assert HandlerOk(s, c);
      DisconnectKeepsNamesUnique(s.state, h);
      var cs := s.state.connections;
      var cs' := s'.state.connections;
      if h.userConn.None? {
        DisconnectUnnamed(s.state, h);
      }
      assert forall x: Entry :: x.conn != c ==> (x in cs' <==> x in cs);
      RemovalKeepsInv(s, s', c);
    }
  }

  /** Closing connection `c`, when the registry only loses entries and keeps every entry of
      other connections, keeps the invariant. */
  lemma RemovalKeepsInv(s: Relay, s': Relay, c: ConnId)
    requires Inv(s) && c in s.handlers
    requires s'.handlers == s.handlers - {c} && s'.next == s.next
    requires UniqueNames(s'.state.connections)
    requires forall x :: x in s'.state.connections ==> x in s.state.connections
    requires forall x: Entry :: x.conn != c ==> (x in s'.state.connections <==> x in s.state.connections)
    ensures Inv(s')
  {
    var cs, cs' := s.state.connections, s'.state.connections;
    forall i | 0 <= i < |cs'|
      ensures cs'[i].conn < s'.next
    {
      assert cs'[i] in cs;
    }
    forall d | d in s'.handlers
      ensures HandlerOk(s', d)
    {
      assert HandlerOk(s, d);
      assert s'.handlers[d] == s.handlers[d];
    }
  }

  /** Any run from a state satisfying the invariant keeps it. */
  lemma {:induction false} RunKeepsInv(s: Relay, evs: seq<Event>)
    requires Inv(s)
    ensures Inv(Run(s, evs).0)
    decreases |evs|
  {
    if evs != [] {
      ApplyKeepsInv(s, evs[0]);
      RunKeepsInv(Apply(s, evs[0]).0, evs[1..]);
    }
  }

  /** Whatever happens after start-up, no two registry entries share a name. */
  lemma NamesUniqueInEveryRun(evs: seq<Event>)
    ensures UniqueNames(Run(Boot, evs).0.state.connections)
  {
    BootInv();
    RunKeepsInv(Boot, evs);
  }

  /** A frame written while handling a record of connection `c` goes either back to `c` or to
      a connection that holds a registry entry. */
  lemma ReceiveTargets(s: Relay, c: ConnId, rec: InRecord)
    requires Inv(s) && c in s.handlers
    ensures forall d :: d in Apply(s, Receive(c, rec)).1 ==>
              d.to == c || exists e :: e in s.state.connections && e.conn == d.to
  {
    var h := s.handlers[c];
    var o := Step(s.state, h, rec);
    forall d | d in o.out
      ensures d.to == c || exists e :: e in s.state.connections && e.conn == d.to
    {
      if h.userConn.Some? && IsSubmission(rec) {
        if rec.control == BroadcastMarker {
          BroadcastFansOut(s.state, h, rec);
        } else if NameInUse(s.state.connections, rec.control) {
          var dest := FindByName(s.state.connections, rec.control).value;
          LatestAfterAppend(s.state.privateMessages, NewRecord(h.userConn.value.name, rec));
          assert d.to == dest.conn;
        }
      }
    }
  }
}

=== FILE: wrappers.dfy ===
/** The optional value used wherever the relay or a client may have "nothing": a Python `None`. */
module Wrappers {

  datatype Option<+T> = None | Some(value: T) {

    /** The wrapped value, or `default` when there is none (Python's `dict.get(key, default)`). */
    function GetOr(default: T): T
    {
      match this
      case Some(v) => v
      case None => default
    }
  }
}
